=== FILE: README.md ===
# bitcoin-tracker: the ticker page's state machine and the cron price log

This project models the two parts of bitcoin-tracker that change state.

**The page script in `index.php`.** It keeps one mutable `state` record and drives it with three steps:
- `ingestFeed` takes a fetched `bitcoin.json` document. It normalises, filters and sorts the samples, and drops a document whose newest `(ts, value)` signature equals the one it took last. It then sets the last and target values, the trend, the meta defaults and an animation window of at least one second. Finally it rebuilds the anchor table and arms the next poll.
- `fetchFeed` runs once at page load and then whenever the poll timer fires. It hands a parsed document to `ingestFeed` and swallows every failure.
- `scheduleNextFetch` computes a skew-corrected, jittered poll delay with a 500 ms floor. A new timer always replaces the old one.
- The `render` tick interpolates the shown price between the last and the target value, raises the stale flag, and derives the anchor indicators.

Around these steps the script has pure helpers, which the project also models:
- the anchor lookup `findBefore` and the anchor rows of `buildAnchors`;
- the `fmtAgo` duration formatter;
- `median`;
- the office-hours tone (`computeAutoMoodMode`, `updateMoodMode`, `setMoodOverride`);
- the phrase lexicon (`normalizeMoodData`, `moodListForScore`, `bitcoinMood`);
- the final rounding of `quantizeScore`;
- the sentence rule of `getConclusion`.

**The cron step in `update.php`.** It loads the price log, takes one fetched price and rejects a duplicate timestamp. It appends the price. When the price repeats the last one, the last stored entry is first smoothed to a midpoint. It then trims the log to the newest 10080 entries and rewrites `meta`.

Layout:
- `wrappers.dfy`: `Option`.
- `sorting.dfy` (module `Sorting`): the stable ascending sort and `median`.
- `feed.dfy` (module `Feed`): samples, the JavaScript `||` defaults, trend, animation window, poll delay, interpolation, stale flag and indicators.
- `anchors.dfy` (module `Anchors`): `findBefore`, `fmtAgo` and the anchor rows.
- `mood.dfy` (module `Mood`): tone, lexicon, score rounding and conclusion.
- `app.dfy` (module `App`): the `state` record (datatype `State`) and the class `AppState`, whose methods are the page's state-changing steps.
- `price_log.dfy` (module `PriceLog`): the class `PriceLog` with its `Load` constructor and its `Step` method.

Conventions:
- Times are epoch seconds and page prices euros, both as exact `real`s.
- The clock, the clock skew, `Math.random` draws, the fetched documents and `localStorage` contents are parameters.
- Stored cron prices are integer thousandths of a euro (precision 3).

Details of the code that the model follows:
- Smoothing replaces the *last* stored value with the midpoint of the entry before it and the new value (update.php:45-51). The entry before it is left as it was.
- The professional tone includes both 08:00:00 and 17:30:00 exactly (index.php:642-645).
- `quantizeScore` rounds first and clamps afterwards (index.php:559).
- `moodListForScore` falls back from the tone's section to `degen` and then to the lexicon's top level (index.php:690-693).

## Model

| member | source | states |
|---|---|---|
| Sorting.InsertBy | index.php:216 | Inserting into an ascending list gives an ascending list one longer that is a permutation of the input plus the new element |
| Sorting.SortBy | index.php:216 | The sort keeps the length, is a permutation of its input and is ascending by the key |
| Sorting.SortedPermutationsEqual | index.php:527 | Two ascending orderings of the same multiset of numbers are equal, so the sorted copy is determined by the values alone |
| Sorting.SortByStable | index.php:216 | For every key, the elements with that key come out of the sort in their input order |
| Sorting.InsertByWithKey | index.php:216 | Inserting into an ascending list puts the new element in front of every element with an equal key and keeps the input order of the rest |
| Sorting.SortByLast | index.php:216-220 | The last element of the sorted list has the greatest key, and it is the last element with that key in input order: the `latest` sample is the last entry of the newest timestamp |
| Sorting.MedianWithinValues | index.php:525-530 | The median of a non-empty list is at least one of its values and at most one of its values |
| Sorting.MedianOrderInsensitive | index.php:525-530 | Two permutations of the same values have the same median |
| Sorting.MedianOfSorted | index.php:525-530 | On an ascending list the median is the middle element for odd length and the mean of the two middle elements for even length |
| Feed.NormalizeCounts | index.php:210-215 | Each sample occurs in the normalised list exactly as often as an entry with those two finite fields occurs in the input, and is in it iff such an entry is |
| Feed.NormalizeConcat | index.php:210-215 | Normalising a concatenation is the concatenation of the normalised parts, so kept samples stay in input order |
| Feed.PrepareSamples | index.php:210-216 | The samples are ascending by timestamp and are a permutation of the finite entries |
| Feed.PrepareSamplesStable | index.php:210-216 | Samples with equal timestamps keep the order of their entries in the document |
| Feed.TrendOf | index.php:239-242 | `Up` iff the new value is strictly greater, `Down` iff strictly smaller, `Neutral` iff equal |
| Feed.AnimDuration | index.php:248-259 | The animation lasts at least one second and at least until the predicted next update, and equals one of the two |
| Feed.Jitter | index.php:168-170 | The jitter lies in [1, 2) seconds for a draw in [0, 1) |
| Feed.FetchDelayMs | index.php:158-179 | The delay is at least 500 ms; the fire time in server time never precedes `updated_at + interval + 2 + jitter`, and equals it unless the floor applied |
| Feed.NextPoll | index.php:153-183 | With a falsy update time or interval, the pending poll stays as it was. Otherwise exactly one poll is pending, at least 500 ms ahead, and unless floored it fires in server time at exactly `updated_at + interval + 3 + random`, within `[updated_at + interval + 3, updated_at + interval + 4)` |
| Feed.Interpolated | index.php:323-332 | The shown value is `lastValue` until the window starts, `targetValue` once it has elapsed, and inside the window `last + (target - last) * t` with `t` the elapsed fraction of the window; it always lies between the two |
| Feed.IndicatorFor | index.php:428-441 | The arrow is up iff the live price is at least the reference; the absolute difference restores the live price with that sign; the percentage is present iff the reference is non-zero; it is non-negative, and times the reference's magnitude it is a hundred times the absolute difference |
| Feed.StaleThreshold | index.php:334-336 | The stale flag is down at exactly `updated_at + interval * 2` and, once raised, stays raised as time goes on |
| Anchors.IndexAtOrBefore | index.php:358-360 | The index found holds a sample at or before the cut-off and every later sample is after it; none is found only when every sample is after it |
| Anchors.FindBefore | index.php:358-360 | The sample found is in the list at or before the cut-off, at a position after which every sample is later than the cut-off; nothing is found iff every sample is after the cut-off |
| Anchors.IndexMonotone | index.php:358-360 | On ascending samples, a later cut-off finds a sample at the same or a later position, with a timestamp at least as late |
| Anchors.FmtAgo | index.php:362-383 | Weeks, days and hours decompose the whole hours exactly (`w*168 + d*24 + rh == h`) with `d < 7` and `rh < 24`; each branch is taken exactly in its range of hours; below an hour the result is whole minutes |
| Anchors.AgoLabelExamples | index.php:362-392 | A week reads "1w ago", 25 hours "1d 1h ago" and 150 seconds "2 min ago" |
| Anchors.HorizonCaptions | index.php:389-392 | Rows of the four horizons are labelled "1h ago", "1d ago", "2d ago" and "3d ago", whatever their value and age |
| Anchors.HorizonAnchorMeaning | index.php:389-396 | A horizon has a row iff some sample is at least that many hours older than the newest. The row is labelled with the horizon, is at least that old, and holds the value and age of the last such sample |
| Anchors.HorizonAnchorAges | index.php:389-396 | There are at most as many rows as horizons; every horizon row is at least its own horizon old (so at least one hour) and no older than the first sample |
| Anchors.HorizonRowsFromHorizons | index.php:389-396 | Every horizon row is the row of one of the horizons |
| Anchors.HorizonRowsCoverHorizons | index.php:389-396 | Every horizon that finds a sample has its row among the rows |
| Anchors.HorizonRowCaptionsIncrease | index.php:389-396 | For increasing horizons the rows' labels strictly increase, so each horizon has at most one row and the rows follow the horizon order |
| Anchors.HorizonAnchorsComplete | index.php:389-396 | When every horizon finds a sample there is one row per horizon, labelled with the horizons in order |
| Anchors.HorizonAnchorsNoOlderThan | index.php:389-396 | Rows for cut-offs at or after a time are no older than the sample found at that time |
| Anchors.HorizonAnchorsAscending | index.php:389-396 | For increasing horizons the rows come out in non-decreasing age |
| Anchors.AnchorRowsShape | index.php:385-405 | `buildAnchors` yields between one and five rows in non-decreasing age, ending with the first sample's row, and every horizon row is at least one hour old |
| Mood.AutoMoodMode | index.php:632-649 | The tone is professional iff it is Monday to Friday and the time of day is between 08:00:00 and 17:30:00 inclusive |
| Mood.ResolveMood | index.php:669-674 | With an override, the setting is that override and the tone is the override; without one, the setting is auto and the tone is the office-hours tone |
| Mood.NormalizeMoodData | index.php:624-630 | A lexicon with a tone section is kept unchanged; a flat or missing one serves both tones with the same buckets; the result always has a tone section |
| Mood.ClampScore | index.php:695 | The bucket is in -4..4, equals an in-range score, and is the bucket nearest to the score |
| Mood.MoodListForScore | index.php:687-697 | Without a lexicon there is no list. Otherwise the bucket is read from the tone's section (no tone counts as degen), else from degen's section when the tone has none, else from the top level when neither exists; a missing bucket gives no list |
| Mood.MoodListSaturates | index.php:695 | Scores above 4 or below -4 read the 4 or -4 bucket |
| Mood.FlatLexiconIgnoresTone | index.php:624-697 | A normalised flat lexicon gives both tones the same list, which is the flat lexicon's bucket |
| Mood.BitcoinMood | index.php:699-703 | The phrase is a member of the bucket's list when that list is present and non-empty, and "doing something" otherwise |
| Mood.QuantizeScore | index.php:556-560 | The score is an integer in -4..4 and lies within one half of an in-range input |
| Mood.QuantizeMonotone | index.php:556-560 | Quantising never reverses the order of two inputs |
| Mood.ConclusionText | index.php:604-613 | The sentence starts with "Bitcoin is " and the phrase. It ends with ", but still down on the longer run" for a positive score and a falling long run, with ", but still up on the longer run" for a negative score and a rising long run, and with the phrase itself otherwise |
| Mood.GetConclusion | index.php:598-614 | There is no conclusion iff there is no truthy price or no sample; otherwise it is the sentence on some phrase the lexicon offers for the score |
| App.Indicators | index.php:428-441 | One indicator per anchor row, each the one `IndicatorFor` gives for the live value and the row's value (so with the percentage's value and sign stated there): up iff the live value is at least the row's value, the absolute difference restores the live value, and a percentage iff the row's value is non-zero |
| App.HorizonRows | index.php:389-396 | The loop pushes exactly the rows of the horizons that find a sample, in horizon order |
| App.AnchorTable | index.php:385-404 | The rows are the horizon rows followed by the first sample's row |
| App.TakeFeed | index.php:225-259 | The field updates of an accepted feed leave the record consistent: ascending samples, signature of the newest sample, last and target values and their trend, and an animation window of at least one second |
| App.AppState.constructor | index.php:105-128 | Page load sets the initial `state`, the auto tone setting, and the skew as client time minus server time |
| App.AppState.Ingest | index.php:206-290 | The document is taken iff it has at least two entries, at least two finite samples and a new signature; otherwise nothing changes. A taken document sets every field as `ingestFeed` does, including the anchors and the next poll. The record stays consistent, and the same document offered again is refused |
| App.AppState.Accept | index.php:225-289 | The updates after the guards: every field as `ingestFeed` sets it, with the record consistent |
| App.AppState.FetchFeed | index.php:143-148 | The pending poll is gone. A document is taken exactly when `ingestFeed` would take it, and then the state is the ingested one; a refused document or a failed fetch leaves everything else as it was and no poll pending |
| App.AppState.FetchFeedRearmed | index.php:143-201 | Takes the same documents as `FetchFeed`; a refused or failed fetch re-arms the poll from the feed held, so a poll is pending whenever `updated_at` and the interval are truthy |
| App.AppState.ScheduleNextFetch | index.php:153-201 | Only the pending poll changes, and it becomes the one `NextPoll` gives |
| App.AppState.RenderTick | index.php:295-352 | The tick does nothing without a truthy target. The first tick shows `lastValue` exactly and sets the first-render flag. Later ticks show the interpolated value, which lies between the last and target values, with the strict stale flag and one indicator per anchor. Nothing else changes |
| App.AppState.BuildAnchors | index.php:385-407 | `state.anchors` becomes the anchor rows of the samples; nothing else changes |
| App.AppState.ConclusionLine | index.php:598-620 | The line is empty without a truthy target or without samples; otherwise it is the sentence on a phrase the lexicon offers for the score under the current tone |
| App.AppState.UpdateMoodMode | index.php:669-678 | The toggle setting and the tone in effect are the resolved ones for the current override and clock |
| App.AppState.SetMoodOverride | index.php:660-667 | The override is stored, and the setting and the tone are resolved from it |
| App.AppState.LoadMoodOverride | index.php:651-658 | Only a stored "pro" or "degen" replaces the override; anything else leaves it as it was |
| App.AppState.LoadMood | index.php:680-685 | The lexicon is the normalised fetched one, and the setting and the tone are resolved again |
| App.RefetchIsNoOp | index.php:206-224 | Ingesting the same document twice leaves the record consistent, and the second ingest reports no change |
| App.DuplicateStopsPolling | index.php:143-224 | Once a feed is taken, fetching the same feed again leaves no poll pending |
| App.DuplicateKeepsPollingRearmed | index.php:143-201 | With the re-arming fetch the same sequence keeps a poll pending whenever `updated_at` and the interval are truthy |
| App.WorkedExample | index.php:245-332 | For an update at 1000 s with a 60 s interval, the animation lasts 60 s, the tick at 1030 s shows the mean of 100 and 110, and a jitter draw of 0.5 sets the poll at 1063.5 s |
| PriceLog.Midpoint | update.php:48 | The rounded midpoint lies between its two operands and is the nearest integer to their mean, with a half rounded away from zero |
| PriceLog.MidpointUnique | update.php:48 | Only `Midpoint` satisfies those rounding bounds |
| PriceLog.Appended | update.php:42-65 | The log grows by one and ends with `(now, value)`. Earlier entries are untouched except the last one. For a repeated value with at least two entries, that last entry keeps its timestamp and takes the midpoint of the entry before it and the new value; otherwise it is untouched too |
| PriceLog.Trimmed | update.php:67-70 | At most 10080 entries remain, exactly `min(n, 10080)` of them, and they are the newest ones in their original order |
| PriceLog.AppendedKeepsOrder | update.php:42-65 | Appending a later timestamp keeps the timestamps strictly increasing |
| PriceLog.TrimmedKeepsOrder | update.php:67-70 | Trimming keeps the timestamps strictly increasing |
| PriceLog.AppendKeepsOrder | update.php:33-70 | A run whose clock moved forward keeps the log strictly increasing in time |
| PriceLog.BackwardsClockBreaksOrder | update.php:34-37 | The duplicate guard compares only against the last timestamp, so a clock that goes back produces an out-of-order log |
| PriceLog.PriceLog.Load | update.php:14-22 | A decodable document with `prices` is taken as it is; otherwise the log starts as an empty euro log with empty meta |
| PriceLog.PriceLog.Append | update.php:39-65 | The in-place append leaves exactly `Appended` of the previous log |
| PriceLog.PriceLog.Step | update.php:24-77 | A failed fetch or a duplicate timestamp exits with the document unchanged, and a write happens exactly otherwise. A write leaves the trimmed, appended log ending in `(now, value)` with at most 10080 entries, sets meta to `(now, 60, 3)`, and keeps the currency |

## Left out

- Browser and server I/O are not modelled: `fetch`, `localStorage` writes, the DOM, the sparkline canvas (`drawSparkline`), `console.log`, the CoinGecko request, the JSON file read and write, and JSON encoding. Their results are parameters.
- The two self-re-arming timers are not modelled as timers. Each step runs once, with the client clock passed in, and `fetchTimer` holds the client time at which the one pending poll would fire. A fired poll is the call of `FetchFeed`.
- Feed.Normalize: a `null` entry in `prices` makes `p.ts` throw (index.php:212), so the whole document is ignored. Entries are modelled as records with optional fields, so a `null` entry cannot be written.
- Feed.NextPoll: `setTimeout` holds its delay as a 32-bit signed count of milliseconds, so a delay above 2^31 - 1 ms fires at once. The model treats every delay as exact.
- The trend engine's floating-point heuristics are left out, because they rely on `sqrt`, `tanh` and `log1p`: `stddev`, `minuteVolatility`, `medianMinuteReturn`, `normalizedMove`, `computeAnchorTrendScore` and `sinceStartTrend`. The score and the long-run direction are inputs.
- Mood.QuantizeScore: starts from the already squashed value `tanh(x / 1.6) * 4`; `tanh` itself is not modelled.
- `Intl.NumberFormat` money and percentage formatting (`euro`, `pct`) is a library call and is left out. Indicators carry the numbers, not their text.
- App.AppState.RenderTick: does not model the branch where the price element is missing from the page (a DOM lookup).
- Floating point is not modelled. Prices and times are exact reals, so an infinite `meta` field and IEEE rounding in the interpolation are not captured; a non-finite `Number()` result is `None`.
- The signature string `ts + ':' + value` is modelled as the pair of numbers it prints.
- PriceLog.PriceLog.Step: assumes stored values are exact thousandths, so PHP's `round` of the last stored value is the identity. PHP float rounding of raw doubles is not modelled.
- App.AppState: `state` is a record value held in one field and replaced as a whole. Field-by-field aliasing of the JavaScript object is not captured.
- Anchors.Anchor: holds the span its label formats (`captionSec`) rather than the label string; `Caption` gives the text.
- The page's markup, meta tags, asset URLs and `renderMoodControls` are presentation and are not modelled.

## Findings

| source | as written | input that shows it | evidently intended | confidence | as-written member | corrected member |
|---|---|---|---|---|---|---|
| index.php:143-148, 183, 218-224 | Only an accepted document arms the next poll, and the timer that ran `fetchFeed` has fired, so a refused document or a failed request leaves no poll pending and the page never polls again | a poll whose document has the same newest sample as the last one taken (a cron run that is late), or one failed request | polling continues after a refused or failed fetch, re-armed from the feed already held | not executed | App.AppState.FetchFeed, App.DuplicateStopsPolling | App.AppState.FetchFeedRearmed, App.DuplicateKeepsPollingRearmed |

=== FILE: anchors.dfy ===
/**
 * The anchor table of the page script (index.php:358-407): the lookup of
 * the last sample at or before a time, the "time ago" formatter, and the
 * anchor rows for the fixed look-back horizons plus the start of history.
 */
module Anchors {
  import opened Wrappers
  import opened Sorting
  import opened Feed

  /** The look-back horizons in hours, in the order rows are emitted (index.php:389). */
  const HorizonHours: seq<int> := [1, 24, 48, 72]

  /**
   * A derived reference point: the reference price, its age in seconds and
   * the span `captionSec` whose `fmtAgo` text labels the row (the label
   * itself is `Caption`).
   */
  datatype Anchor = Anchor(captionSec: real, value: real, ageSec: real)

  /** The row label `fmtAgo(...) + ' ago'` (index.php:392, 400). */
  function Caption(a: Anchor): string { AgoLabel(a.captionSec) }

  function AgeOf(a: Anchor): real { a.ageSec }

  /**
   * The position `findBefore` lands on: it scans the samples from the end
   * and stops at the first one whose timestamp is at most `ts`.
   */
  function IndexAtOrBefore(s: seq<Sample>, ts: real): (r: Option<nat>)
    ensures r.Some? ==> r.value < |s| && s[r.value].ts <= ts
    ensures r.Some? ==> forall j :: r.value < j < |s| ==> s[j].ts > ts
    ensures r.None? ==> forall j :: 0 <= j < |s| ==> s[j].ts > ts
    decreases |s|
  {
    if |s| == 0 then None
    else if s[|s| - 1].ts <= ts then Some(|s| - 1)
    else IndexAtOrBefore(s[..|s| - 1], ts)
  }

  /** `findBefore(ts)` (index.php:358-360): the last sample in sequence order with `p.ts <= ts`. */
  function FindBefore(s: seq<Sample>, ts: real): (r: Option<Sample>)
    ensures r.Some? ==> r.value in s && r.value.ts <= ts
    ensures r.Some? ==> exists i :: 0 <= i < |s| && s[i] == r.value && forall j :: i < j < |s| ==> s[j].ts > ts
    ensures r.None? <==> forall p :: p in s ==> p.ts > ts
  {
    match IndexAtOrBefore(s, ts)
    case Some(i) => Some(s[i])
    case None => None
  }

  /** On ascending samples a later cut-off finds a sample at least as late. */
  lemma IndexMonotone(s: seq<Sample>, t1: real, t2: real)
    requires SortedBy(s, TsOf) && t1 <= t2
    requires IndexAtOrBefore(s, t1).Some?
    ensures IndexAtOrBefore(s, t2).Some?
    ensures IndexAtOrBefore(s, t1).value <= IndexAtOrBefore(s, t2).value
    ensures s[IndexAtOrBefore(s, t1).value].ts <= s[IndexAtOrBefore(s, t2).value].ts
  {
    var i := IndexAtOrBefore(s, t1).value;
    assert s[i].ts <= t2;
    var k := IndexAtOrBefore(s, t2).value;
    if i < k {
      assert TsOf(s[i]) <= TsOf(s[k]);
    }
  }

  /** The parts `fmtAgo` prints (index.php:362-383). */
  datatype Ago =
    | Weeks(w: int, d: int, rh: int)
    | Days(d: int, rh: int)
    | Hours(h: int)
    | Minutes(m: int)

  /**
   * `fmtAgo(sec)`: whole hours split into weeks, days and hours from one
   * week up, into days and hours from one day up, whole hours from one
   * hour up, and whole minutes below that.
   */
  function FmtAgo(sec: real): (a: Ago)
    ensures a.Weeks? ==> a.w >= 1 && 0 <= a.d < 7 && 0 <= a.rh < 24
                         && a.w * 168 + a.d * 24 + a.rh == (sec / 3600.0).Floor
    ensures a.Days? ==> 1 <= a.d < 7 && 0 <= a.rh < 24 && a.d * 24 + a.rh == (sec / 3600.0).Floor
    ensures a.Hours? ==> 1 <= a.h < 24 && a.h == (sec / 3600.0).Floor
    ensures a.Minutes? ==> (sec / 3600.0).Floor < 1 && a.m == (sec / 60.0).Floor
  {
    var h := (sec / 3600.0).Floor;
    if h >= 24 * 7 then
      var w := h / (24 * 7);
      var remH := h % (24 * 7);
      Weeks(w, remH / 24, remH % 24)
    else if h >= 24 then
      Days(h / 24, h % 24)
    else if h >= 1 then
      Hours(h)
    else
      Minutes((sec / 60.0).Floor)
  }

  function DigitChar(n: nat): char
    requires n < 10
  {
    "0123456789"[n]
  }

  function NatText(n: nat): string
    decreases n
  {
    if n < 10 then [DigitChar(n)] else NatText(n / 10) + [DigitChar(n % 10)]
  }

  /** JavaScript's decimal rendering of an integer-valued number. */
  function IntText(i: int): string
  {
    if i < 0 then "-" + NatText(-i) else NatText(i)
  }

  /** The text `fmtAgo` returns: zero days and zero hours are left out. */
  function AgoText(a: Ago): string
  {
    match a
    case Weeks(w, d, rh) =>
      if d == 0 && rh == 0 then IntText(w) + "w"
      else if rh == 0 then IntText(w) + "w " + IntText(d) + "d"
      else IntText(w) + "w " + IntText(d) + "d " + IntText(rh) + "h"
    case Days(d, rh) =>
      if rh == 0 then IntText(d) + "d" else IntText(d) + "d " + IntText(rh) + "h"
    case Hours(h) => IntText(h) + "h"
    case Minutes(m) => IntText(m) + " min"
  }

  function AgoLabel(sec: real): string
  {
    AgoText(FmtAgo(sec)) + " ago"
  }

  function HorizonSec(h: int): real { (h * 3600) as real }

  /** The row for horizon `h`, if some sample is at least `h` hours older than `latestTs` (index.php:390-395). */
  function HorizonAnchor(s: seq<Sample>, latestTs: real, h: int): Option<Anchor>
  {
    match FindBefore(s, latestTs - HorizonSec(h))
    case Some(p) => Some(Anchor(HorizonSec(h), p.value, latestTs - p.ts))
    case None => None
  }

  /**
   * The four horizon rows are labelled "1h ago", "1d ago", "2d ago" and
   * "3d ago" (index.php:389-392), whatever their value and age.
   */
  lemma HorizonCaptions(value: real, age: real)
    ensures FmtAgo(HorizonSec(1)) == Hours(1) && Caption(Anchor(HorizonSec(1), value, age)) == "1h ago"
    ensures FmtAgo(HorizonSec(24)) == Days(1, 0) && Caption(Anchor(HorizonSec(24), value, age)) == "1d ago"
    ensures FmtAgo(HorizonSec(48)) == Days(2, 0) && Caption(Anchor(HorizonSec(48), value, age)) == "2d ago"
    ensures FmtAgo(HorizonSec(72)) == Days(3, 0) && Caption(Anchor(HorizonSec(72), value, age)) == "3d ago"
  {
  }

  /**
   * Horizon `h` has a row exactly when some sample is at least `h` hours
   * older than `latestTs`. The row is labelled with the horizon and is at
   * least that old. It holds the value and the age of the last such sample
   * in sequence order.
   */
  lemma HorizonAnchorMeaning(s: seq<Sample>, latestTs: real, h: int)
    ensures HorizonAnchor(s, latestTs, h).Some? <==> exists i :: 0 <= i < |s| && s[i].ts <= latestTs - HorizonSec(h)
    ensures HorizonAnchor(s, latestTs, h).Some? ==>
              var a := HorizonAnchor(s, latestTs, h).value;
              && a.captionSec == HorizonSec(h)
              && a.ageSec >= HorizonSec(h)
              && exists i :: 0 <= i < |s| && s[i].value == a.value && a.ageSec == latestTs - s[i].ts
                             && forall j :: i < j < |s| ==> s[j].ts > latestTs - HorizonSec(h)
  {
    var cut := latestTs - HorizonSec(h);
    if HorizonAnchor(s, latestTs, h).None? {
      forall i | 0 <= i < |s| ensures s[i].ts > cut {
        assert s[i] in s;
      }
    }
  }

  /** Zero days and zero hours are left out of the label; below an hour it counts whole minutes. */
  lemma AgoLabelExamples()
    ensures AgoLabel(604800.0) == "1w ago"
    ensures AgoLabel(90000.0) == "1d 1h ago"
    ensures AgoLabel(150.0) == "2 min ago"
  {
  }

  /** `HorizonAnchor` in terms of the sample `FindBefore` returns. */
  lemma HorizonAnchorOf(s: seq<Sample>, latestTs: real, h: int, p: Option<Sample>)
    requires p == FindBefore(s, latestTs - HorizonSec(h))
    ensures p.Some? ==> HorizonAnchor(s, latestTs, h) == Some(Anchor(HorizonSec(h), p.value.value, latestTs - p.value.ts))
    ensures p.None? ==> HorizonAnchor(s, latestTs, h).None?
  {
  }

  /** The rows for the horizons `hs`, in the order of `hs`, skipping those with no sample. */
  function HorizonAnchors(s: seq<Sample>, latestTs: real, hs: seq<int>): seq<Anchor>
    decreases |hs|
  {
    if hs == [] then []
    else
      var prefix := HorizonAnchors(s, latestTs, hs[..|hs| - 1]);
      match HorizonAnchor(s, latestTs, hs[|hs| - 1])
      case Some(a) => prefix + [a]
      case None => prefix
  }

  /** Extending the horizon list by one adds at most that horizon's row at the end. */
  lemma HorizonAnchorsStep(s: seq<Sample>, latestTs: real, hs: seq<int>, i: nat)
    requires i < |hs|
    ensures HorizonAnchors(s, latestTs, hs[..i + 1])
         == HorizonAnchors(s, latestTs, hs[..i]) + (match HorizonAnchor(s, latestTs, hs[i]) case Some(a) => [a] case None => [])
  {
    assert hs[..i + 1][..i] == hs[..i];
  }

  /** The closing row: the first retained sample (index.php:398-403). */
  function FirstAnchor(s: seq<Sample>): Anchor
    requires |s| > 0
  {
    var latestTs := s[|s| - 1].ts;
    Anchor(latestTs - s[0].ts, s[0].value, latestTs - s[0].ts)
  }

  /** The rows of all horizons followed by the closing row. */
  lemma AnchorRowsFromParts(s: seq<Sample>, latestTs: real, rows: seq<Anchor>, hs: seq<int>)
    requires rows == HorizonAnchors(s, latestTs, hs[..|hs|])
    ensures rows == HorizonAnchors(s, latestTs, hs)
  {
    assert hs[..|hs|] == hs;
  }

  /** The horizon rows followed by the closing row are `AnchorRows`. */
  lemma AnchorRowsOf(s: seq<Sample>, rows: seq<Anchor>)
    requires |s| > 0 && rows == HorizonAnchors(s, s[|s| - 1].ts, HorizonHours)
    ensures rows + [FirstAnchor(s)] == AnchorRows(s)
  {
  }

  /** All rows `buildAnchors` stores in `state.anchors`. */
  function AnchorRows(s: seq<Sample>): seq<Anchor>
    requires |s| > 0
  {
    HorizonAnchors(s, s[|s| - 1].ts, HorizonHours) + [FirstAnchor(s)]
  }

  predicate StrictlyIncreasing(hs: seq<int>)
  {
    forall i, j :: 0 <= i < j < |hs| ==> hs[i] < hs[j]
  }

  /** Every row is the row of one of the horizons. */
  lemma {:induction false} HorizonRowsFromHorizons(s: seq<Sample>, latestTs: real, hs: seq<int>)
    ensures forall a :: a in HorizonAnchors(s, latestTs, hs) ==>
              exists k :: 0 <= k < |hs| && HorizonAnchor(s, latestTs, hs[k]) == Some(a)
    decreases |hs|
  {
    if hs != [] {
      var init := hs[..|hs| - 1];
      HorizonRowsFromHorizons(s, latestTs, init);
      var prefix := HorizonAnchors(s, latestTs, init);
      forall a | a in HorizonAnchors(s, latestTs, hs)
        ensures exists k :: 0 <= k < |hs| && HorizonAnchor(s, latestTs, hs[k]) == Some(a)
      {
        if a in prefix {
          var k :| 0 <= k < |init| && HorizonAnchor(s, latestTs, init[k]) == Some(a);
          assert init[k] == hs[k];
        } else {
          assert HorizonAnchor(s, latestTs, hs[|hs| - 1]) == Some(a);
        }
      }
    }
  }

  /** Every horizon that finds a sample has its row among the rows. */
  lemma {:induction false} HorizonRowsCoverHorizons(s: seq<Sample>, latestTs: real, hs: seq<int>)
    ensures forall k :: 0 <= k < |hs| && HorizonAnchor(s, latestTs, hs[k]).Some? ==>
              HorizonAnchor(s, latestTs, hs[k]).value in HorizonAnchors(s, latestTs, hs)
    decreases |hs|
  {
    if hs != [] {
      var init := hs[..|hs| - 1];
      HorizonRowsCoverHorizons(s, latestTs, init);
      var prefix := HorizonAnchors(s, latestTs, init);
      assert forall a :: a in prefix ==> a in HorizonAnchors(s, latestTs, hs);
      forall k | 0 <= k < |hs| && HorizonAnchor(s, latestTs, hs[k]).Some?
        ensures HorizonAnchor(s, latestTs, hs[k]).value in HorizonAnchors(s, latestTs, hs)
      {
        if k < |init| {
          assert init[k] == hs[k];
        }
      }
    }
  }

  /** A row of horizons all below `h` is labelled with a shorter span than `h`. */
  lemma CaptionBelow(s: seq<Sample>, latestTs: real, init: seq<int>, h: int, b: Anchor)
    requires b in HorizonAnchors(s, latestTs, init)
    requires forall k :: 0 <= k < |init| ==> init[k] < h
    ensures b.captionSec < HorizonSec(h)
  {
    HorizonRowsFromHorizons(s, latestTs, init);
    var k :| 0 <= k < |init| && HorizonAnchor(s, latestTs, init[k]) == Some(b);
    assert b.captionSec == HorizonSec(init[k]);
  }

  /** Each row is labelled with a strictly longer span than the rows before it. */
  predicate CaptionsIncrease(rows: seq<Anchor>)
  {
    forall i, j :: 0 <= i < j < |rows| ==> rows[i].captionSec < rows[j].captionSec
  }

  /**
   * For increasing horizons the rows' labels increase strictly, so no two
   * rows belong to the same horizon.
   */
  lemma {:induction false} HorizonRowCaptionsIncrease(s: seq<Sample>, latestTs: real, hs: seq<int>)
    requires StrictlyIncreasing(hs)
    ensures CaptionsIncrease(HorizonAnchors(s, latestTs, hs))
    decreases |hs|
  {
    if hs != [] {
      var init, h := hs[..|hs| - 1], hs[|hs| - 1];
      assert StrictlyIncreasing(init) by {
        forall i, j | 0 <= i < j < |init| ensures init[i] < init[j] {
          assert init[i] == hs[i] && init[j] == hs[j];
        }
      }
      HorizonRowCaptionsIncrease(s, latestTs, init);
      var prefix := HorizonAnchors(s, latestTs, init);
      match HorizonAnchor(s, latestTs, h)
      case None =>
        assert HorizonAnchors(s, latestTs, hs) == prefix;
      case Some(a) =>
        var rows := prefix + [a];
        assert HorizonAnchors(s, latestTs, hs) == rows;
        assert a.captionSec == HorizonSec(h);
        forall k | 0 <= k < |init| ensures init[k] < h {
          assert init[k] == hs[k];
        }
        forall i, j | 0 <= i < j < |rows| ensures rows[i].captionSec < rows[j].captionSec {
          if j == |prefix| {
            assert prefix[i] in prefix;
            CaptionBelow(s, latestTs, init, h, prefix[i]);
          } else {
            assert rows[i] == prefix[i] && rows[j] == prefix[j];
            assert prefix[i].captionSec < prefix[j].captionSec;
          }
        }
    }
  }

  /**
   * Every horizon row is at least its horizon old (so at least an hour old)
   * and no older than the first sample, and there are at most `|hs|` rows.
   */
  lemma {:induction false} HorizonAnchorAges(s: seq<Sample>, latestTs: real, hs: seq<int>)
    requires SortedBy(s, TsOf) && |s| > 0
    requires forall k :: 0 <= k < |hs| ==> hs[k] >= 1
    ensures |HorizonAnchors(s, latestTs, hs)| <= |hs|
    ensures forall a :: a in HorizonAnchors(s, latestTs, hs) ==> 3600.0 <= a.captionSec <= a.ageSec <= latestTs - s[0].ts
    decreases |hs|
  {
    if hs != [] {
      var init := hs[..|hs| - 1];
      HorizonAnchorAges(s, latestTs, init);
      var h := hs[|hs| - 1];
      var i := IndexAtOrBefore(s, latestTs - HorizonSec(h));
      if i.Some? {
        assert TsOf(s[0]) <= TsOf(s[i.value]) || i.value == 0;
      }
    }
  }

  /**
   * Horizon rows whose cut-offs are at or after time `t` are no older than
   * the sample found at `t`.
   */
  lemma {:induction false} HorizonAnchorsNoOlderThan(s: seq<Sample>, latestTs: real, hs: seq<int>, t: real)
    requires SortedBy(s, TsOf)
    requires forall k :: 0 <= k < |hs| ==> latestTs - HorizonSec(hs[k]) >= t
    requires IndexAtOrBefore(s, t).Some?
    ensures forall a :: a in HorizonAnchors(s, latestTs, hs) ==> a.ageSec <= latestTs - s[IndexAtOrBefore(s, t).value].ts
    decreases |hs|
  {
    if hs != [] {
      var init, h := hs[..|hs| - 1], hs[|hs| - 1];
      forall k | 0 <= k < |init| ensures latestTs - HorizonSec(init[k]) >= t {
        assert init[k] == hs[k];
      }
      HorizonAnchorsNoOlderThan(s, latestTs, init, t);
      IndexMonotone(s, t, latestTs - HorizonSec(h));
      var prefix := HorizonAnchors(s, latestTs, init);
      var bound := latestTs - s[IndexAtOrBefore(s, t).value].ts;
      match HorizonAnchor(s, latestTs, h)
      case Some(a) =>
        assert HorizonAnchors(s, latestTs, hs) == prefix + [a];
        assert a.ageSec <= bound;
      case None =>
        assert HorizonAnchors(s, latestTs, hs) == prefix;
    }
  }

  /** For increasing horizons the rows come out in increasing age. */
  lemma {:induction false} HorizonAnchorsAscending(s: seq<Sample>, latestTs: real, hs: seq<int>)
    requires SortedBy(s, TsOf) && StrictlyIncreasing(hs)
    ensures SortedBy(HorizonAnchors(s, latestTs, hs), AgeOf)
    decreases |hs|
  {
    if hs != [] {
      var init := hs[..|hs| - 1];
      var h := hs[|hs| - 1];
      HorizonAnchorsAscending(s, latestTs, init);
      var t := latestTs - HorizonSec(h);
      var i := IndexAtOrBefore(s, t);
      if i.Some? {
        forall k | 0 <= k < |init| ensures latestTs - HorizonSec(init[k]) >= t {
          assert init[k] < h;
        }
        HorizonAnchorsNoOlderThan(s, latestTs, init, t);
        var prefix := HorizonAnchors(s, latestTs, init);
        var all := HorizonAnchors(s, latestTs, hs);
        assert all == prefix + [HorizonAnchor(s, latestTs, h).value];
        forall a, b | 0 <= a < b < |all| ensures AgeOf(all[a]) <= AgeOf(all[b]) {
          if b < |prefix| {
            assert AgeOf(prefix[a]) <= AgeOf(prefix[b]);
          } else {
            assert all[a] in prefix;
          }
        }
      }
    }
  }

  /** When every horizon finds a sample there is one row per horizon, in the order of the horizons. */
  lemma {:induction false} HorizonAnchorsComplete(s: seq<Sample>, latestTs: real, hs: seq<int>)
    requires forall k :: 0 <= k < |hs| ==> FindBefore(s, latestTs - HorizonSec(hs[k])).Some?
    ensures |HorizonAnchors(s, latestTs, hs)| == |hs|
    ensures forall k :: 0 <= k < |hs| ==> HorizonAnchors(s, latestTs, hs)[k].captionSec == HorizonSec(hs[k])
    decreases |hs|
  {
    if hs != [] {
      var init := hs[..|hs| - 1];
      forall k | 0 <= k < |init| ensures FindBefore(s, latestTs - HorizonSec(init[k])).Some? {
        assert init[k] == hs[k];
      }
      HorizonAnchorsComplete(s, latestTs, init);
      var h := hs[|hs| - 1];
      assert FindBefore(s, latestTs - HorizonSec(h)).Some?;
      var prefix := HorizonAnchors(s, latestTs, init);
      var a := HorizonAnchor(s, latestTs, h).value;
      assert HorizonAnchors(s, latestTs, hs) == prefix + [a];
      forall k | 0 <= k < |hs| ensures HorizonAnchors(s, latestTs, hs)[k].captionSec == HorizonSec(hs[k]) {
        if k < |init| {
          assert hs[k] == init[k];
        }
      }
    }
  }

  /**
   * `buildAnchors` rows on ascending samples: at most five, ordered by
   * increasing age, ending with the first sample, and every horizon row at
   * least one hour old.
   */
  lemma AnchorRowsShape(s: seq<Sample>)
    requires SortedBy(s, TsOf) && |s| > 0
    ensures 1 <= |AnchorRows(s)| <= |HorizonHours| + 1
    ensures AnchorRows(s)[|AnchorRows(s)| - 1] == FirstAnchor(s)
    ensures FirstAnchor(s).ageSec >= 0.0
    ensures forall k :: 0 <= k < |AnchorRows(s)| - 1 ==> AnchorRows(s)[k].ageSec >= 3600.0
    ensures SortedBy(AnchorRows(s), AgeOf)
  {
    var latestTs := s[|s| - 1].ts;
    var hs := HorizonHours;
    assert StrictlyIncreasing(hs) && forall k :: 0 <= k < |hs| ==> hs[k] >= 1;
    HorizonAnchorAges(s, latestTs, hs);
    HorizonAnchorsAscending(s, latestTs, hs);
    assert TsOf(s[0]) <= TsOf(s[|s| - 1]) || |s| == 1;
    AppendOldest(HorizonAnchors(s, latestTs, hs), FirstAnchor(s));
  }

  /** Appending a row at least as old as every other keeps the rows in age order. */
  lemma AppendOldest(rows: seq<Anchor>, last: Anchor)
    requires SortedBy(rows, AgeOf)
    requires forall a :: a in rows ==> a.ageSec <= last.ageSec
    ensures SortedBy(rows + [last], AgeOf)
  {
    var all := rows + [last];
    forall a, b | 0 <= a < b < |all| ensures AgeOf(all[a]) <= AgeOf(all[b]) {
      if b < |rows| {
        assert AgeOf(rows[a]) <= AgeOf(rows[b]);
      } else {
        assert all[a] in rows;
      }
    }
  }
}

=== FILE: app.dfy ===
/**
 * The page script's shared `state` record (index.php:105-128) and the
 * steps that update it: feed ingestion, poll scheduling, the render tick,
 * the anchor rebuild and the tone toggle. The clock, the random draws and
 * the fetched documents are parameters.
 */
module App {
  import opened Wrappers
  import opened Sorting
  import opened Feed
  import opened Anchors
  import opened Mood

  /** What one render tick puts on screen; `indicators` is `None` when the tick leaves them as they were. */
  datatype Frame = Frame(value: real, trend: Trend, stale: bool, indicators: Option<seq<Indicator>>)

  /**
   * `updateAnchorIndicators` (index.php:428-441): one indicator per anchor
   * row, pointing up exactly when the live value is at or above the row's
   * reference, with the distance between the two and a percentage whenever
   * the reference is not zero.
   */
  function Indicators(anchors: seq<Anchor>, current: real): (r: seq<Indicator>)
    ensures |r| == |anchors|
    ensures forall k :: 0 <= k < |r| ==> r[k] == IndicatorFor(current, anchors[k].value)
    ensures forall k :: 0 <= k < |r| ==>
              && (r[k].up <==> current >= anchors[k].value)
              && r[k].absDiff >= 0.0
              && current == anchors[k].value + (if r[k].up then r[k].absDiff else -r[k].absDiff)
              && (r[k].absPct.Some? <==> anchors[k].value != 0.0)
  {
    seq(|anchors|, k requires 0 <= k < |anchors| => IndicatorFor(current, anchors[k].value))
  }

  /** `ingestFeed` gets past its three early returns (index.php:207, 218, 224). */
  predicate IngestApplies(raw: Envelope, signature: Option<Signature>)
  {
    && raw.prices.Some? && |raw.prices.value| >= 2
    && var s := PrepareSamples(raw.prices.value);
       |s| >= 2 && signature != Some(SignatureOf(s[|s| - 1]))
  }

  /** The `forEach` over the horizons in `buildAnchors` (index.php:389-396): one pushed row per horizon that finds a sample. */
  method HorizonRows(s: seq<Sample>, latestTs: real, hs: seq<int>) returns (rows: seq<Anchor>)
    ensures rows == HorizonAnchors(s, latestTs, hs)
  {
    rows := [];
    var i := 0;
    while i < |hs|
      invariant 0 <= i <= |hs|
      invariant rows == HorizonAnchors(s, latestTs, hs[..i])
    {
      var h := hs[i];
      HorizonAnchorsStep(s, latestTs, hs, i);
      var p := FindBefore(s, latestTs - HorizonSec(h));
      HorizonAnchorOf(s, latestTs, h, p);
      if p.Some? {
        rows := rows + [Anchor(HorizonSec(h), p.value.value, latestTs - p.value.ts)];
      }
      i := i + 1;
    }
    AnchorRowsFromParts(s, latestTs, rows, hs);
  }

  /** The rows `buildAnchors` computes (index.php:386-404): one per horizon that finds a sample, then the first sample. */
  method AnchorTable(s: seq<Sample>) returns (rows: seq<Anchor>)
    requires |s| > 0
    ensures rows == AnchorRows(s)
  {
    var latestTs := s[|s| - 1].ts;
    var horizonRows := HorizonRows(s, latestTs, HorizonHours);
    var first := s[0];
    AnchorRowsOf(s, horizonRows);
    rows := horizonRows + [Anchor(latestTs - first.ts, first.value, latestTs - first.ts)];
  }

  /** The page script's `state` record (index.php:105-128). */
  datatype State = State(
    samples: seq<Sample>,
    anchors: seq<Anchor>,
    intervalSec: Option<real>,
    updatedAtServerSec: Option<real>,
    lastValue: Option<real>,
    targetValue: Option<real>,
    animStartServerSec: Option<real>,
    animDurationSec: Option<real>,
    trend: Trend,
    /** The one pending poll, as its fire time on the client clock. */
    fetchTimer: Option<real>,
    signature: Option<Signature>,
    hasRenderedOnce: bool)

  /** `state` as the page initialises it (index.php:105-128). */
  const InitialState := State([], [], None, None, None, None, None, None, Neutral, None, None, false)

  /**
   * Before the first accepted feed `state` is as initialised; after it the
   * samples are ascending, the signature is the newest sample's, and the
   * animation runs from the second-to-last to the last value over at least
   * one second.
   */
  predicate Consistent(st: State)
  {
    if st.signature.None? then st == InitialState
    else
      && |st.samples| >= 2 && SortedBy(st.samples, TsOf)
      && st.signature.value == SignatureOf(st.samples[|st.samples| - 1])
      && st.lastValue == Some(st.samples[|st.samples| - 2].value)
      && st.targetValue == Some(st.samples[|st.samples| - 1].value)
      && st.trend == TrendOf(st.lastValue.value, st.targetValue.value)
      && st.intervalSec.Some? && st.intervalSec.value != 0.0
      && st.updatedAtServerSec.Some?
      && st.animStartServerSec.Some?
      && st.animDurationSec.Some? && st.animDurationSec.value >= MinAnimDurationSec
  }

  /**
   * `st` is what `ingestFeed` leaves after taking the ascending samples `s`
   * of `raw` at client time `nowClient` (index.php:225-289), starting from
   * `prev`: the newest sample's signature, the last two values and their
   * trend, the meta fields or their defaults, an animation window of at
   * least one second starting now, the anchors of `s`, the poll armed by
   * the scheduler, and the first-render flag as it was.
   */
  predicate Ingested(st: State, prev: State, s: seq<Sample>, raw: Envelope, skew: real, nowClient: real, random: real)
    requires |s| >= 2 && 0.0 <= random < 1.0
  {
    var latest := s[|s| - 1];
    var updatedAt := OrDefault(raw.updatedAt, latest.ts);
    var interval := OrDefault(raw.interval, DefaultIntervalSec);
    var nowServer := nowClient - skew;
    && st.samples == s
    && st.signature == Some(SignatureOf(latest))
    && st.lastValue == Some(s[|s| - 2].value)
    && st.targetValue == Some(latest.value)
    && st.trend == TrendOf(s[|s| - 2].value, latest.value)
    && st.intervalSec == Some(interval)
    && st.updatedAtServerSec == Some(updatedAt)
    && st.animStartServerSec == Some(nowServer)
    && st.animDurationSec == Some(AnimDuration(updatedAt, interval, nowServer))
    && st.anchors == AnchorRows(s)
    && st.fetchTimer == NextPoll(Some(updatedAt), Some(interval), skew, nowClient, random, prev.fetchTimer)
    && st.hasRenderedOnce == prev.hasRenderedOnce
  }

  /**
   * The field updates of `ingestFeed` before the anchor rebuild and the
   * scheduling (index.php:225-281): they leave a consistent state.
   */
  function TakeFeed(prev: State, s: seq<Sample>, raw: Envelope, skew: real, nowClient: real): (st: State)
    requires |s| >= 2 && SortedBy(s, TsOf)
    ensures Consistent(st)
  {
    var latest, before := s[|s| - 1], s[|s| - 2];
    var interval := OrDefault(raw.interval, DefaultIntervalSec);
    var updatedAt := OrDefault(raw.updatedAt, latest.ts);
    var nowServer := nowClient - skew;
    prev.(
      signature := Some(SignatureOf(latest)),
      samples := s,
      intervalSec := Some(interval),
      updatedAtServerSec := Some(updatedAt),
      lastValue := Some(before.value),
      targetValue := Some(latest.value),
      trend := TrendOf(before.value, latest.value),
      animStartServerSec := Some(nowServer),
      animDurationSec := Some(AnimDuration(updatedAt, interval, nowServer)))
  }

  class AppState {
    /** `CLOCK_SKEW`: client clock minus server clock, fixed at page load (index.php:59-61). */
    const skew: real
    var state: State
    var moodMode: Option<Tone>
    var moodOverride: Option<Tone>
    var moodSetting: Setting
    /** The page's `moodData` global (index.php:622). */
    var moodData: Option<Lexicon>

    ghost predicate Valid()
      reads this
    {
      Consistent(state)
    }

    /** Page load: the initial `state` and the skew from the two clocks (index.php:59-61, 105-128). */
    constructor (serverNow: real, clientNow: real)
      ensures Valid()
      ensures skew == clientNow - serverNow
      ensures state == InitialState && moodMode.None? && moodOverride.None? && moodSetting == Auto && moodData.None?
    {
      skew := clientNow - serverNow;
      state := InitialState;
      moodMode, moodOverride, moodSetting := None, None, Auto;
      moodData := None;
    }

    /**
     * `ingestFeed` (index.php:206-290) with the client clock `nowClient` and
     * the scheduler's random draw. Returns whether the document was taken;
     * when it was not, nothing changes.
     */
    method Ingest(raw: Envelope, nowClient: real, random: real) returns (changed: bool)
      requires Valid() && 0.0 <= random < 1.0
      modifies this`state
      ensures Valid()
      ensures changed == IngestApplies(raw, old(state.signature))
      ensures !changed ==> state == old(state)
      ensures changed ==> Ingested(state, old(state), PrepareSamples(raw.prices.value), raw, skew, nowClient, random)
      ensures !IngestApplies(raw, state.signature)
    {
      changed := false;
      if raw.prices.None? || |raw.prices.value| < 2 {
        return;
      }
      var s := PrepareSamples(raw.prices.value);
      if |s| < 2 {
        return;
      }
      if Some(SignatureOf(s[|s| - 1])) == state.signature {
        return;
      }
      Accept(s, raw, nowClient, random);
      changed := true;
    }

    /** The updates of `ingestFeed` once its guards have passed (index.php:225-289). */
    method Accept(s: seq<Sample>, raw: Envelope, nowClient: real, random: real)
      requires |s| >= 2 && SortedBy(s, TsOf) && 0.0 <= random < 1.0
      modifies this`state
      ensures Valid()
      ensures Ingested(state, old(state), s, raw, skew, nowClient, random)
    {
      state := TakeFeed(state, s, raw, skew, nowClient);
      BuildAnchors();
      ScheduleNextFetch(nowClient, random);
    }

    /**
     * `fetchFeed` (index.php:143-148), run by the poll timer or once at page
     * load (index.php:772): the timer that ran it has fired, so no poll is
     * pending; `doc` is the parsed document, or `None` when the request
     * failed, the status was not ok or the body was not JSON, all of which
     * the `catch` swallows. Only a document `ingestFeed` takes arms the next
     * poll: after a refused or failed fetch no poll is pending.
     */
    method FetchFeed(doc: Option<Envelope>, nowClient: real, random: real) returns (changed: bool)
      requires Valid() && 0.0 <= random < 1.0
      modifies this`state
      ensures Valid()
      ensures changed == (doc.Some? && IngestApplies(doc.value, old(state.signature)))
      ensures !changed ==> state == old(state).(fetchTimer := None)
      ensures changed ==> Ingested(state, old(state).(fetchTimer := None), PrepareSamples(doc.value.prices.value), doc.value, skew, nowClient, random)
    {
      state := state.(fetchTimer := None);
      changed := false;
      if doc.Some? {
        changed := Ingest(doc.value, nowClient, random);
      }
    }

    /**
     * `fetchFeed` as its polling loop evidently intends: a refused or failed
     * fetch re-arms the poll from the feed already held, so a poll is pending
     * whenever the state has a truthy `updated_at` and interval.
     */
    method FetchFeedRearmed(doc: Option<Envelope>, nowClient: real, random: real) returns (changed: bool)
      requires Valid() && 0.0 <= random < 1.0
      modifies this`state
      ensures Valid()
      ensures changed == (doc.Some? && IngestApplies(doc.value, old(state.signature)))
      ensures !changed ==> state == old(state).(fetchTimer := NextPoll(old(state).updatedAtServerSec, old(state).intervalSec, skew, nowClient, random, None))
      ensures changed ==> Ingested(state, old(state).(fetchTimer := None), PrepareSamples(doc.value.prices.value), doc.value, skew, nowClient, random)
      ensures Truthy(state.updatedAtServerSec) && Truthy(state.intervalSec) ==> state.fetchTimer.Some?
    {
      changed := FetchFeed(doc, nowClient, random);
      if !changed {
        ScheduleNextFetch(nowClient, random);
      }
    }

    /**
     * `scheduleNextFetch` (index.php:153-201): the pending poll becomes the
     * one `NextPoll` gives; nothing else changes.
     */
    method ScheduleNextFetch(nowClient: real, random: real)
      requires Valid() && 0.0 <= random < 1.0
      modifies this`state
      ensures Valid()
      ensures state == old(state).(fetchTimer := NextPoll(old(state).updatedAtServerSec, old(state).intervalSec, skew, nowClient, random, old(state).fetchTimer))
    {
      if !Truthy(state.updatedAtServerSec) || !Truthy(state.intervalSec) {
        return;
      }
      var jitter := Jitter(random);
      var delayMs := FetchDelayMs(state.updatedAtServerSec.value, state.intervalSec.value, skew, jitter, nowClient);
      // clearTimeout + setTimeout: the new timer replaces the old one.
      state := state.(fetchTimer := Some(nowClient + delayMs / 1000.0));
    }

    /**
     * One tick of `render` (index.php:295-352): nothing while there is no
     * price, the last value as it is on the first tick, and afterwards the
     * interpolated price, the stale flag and the anchor indicators.
     */
    method RenderTick(nowClient: real) returns (frame: Option<Frame>)
      requires Valid()
      modifies this`state
      ensures Valid()
      ensures state == old(state).(hasRenderedOnce := state.hasRenderedOnce)
      ensures !Truthy(state.targetValue) ==> frame.None? && state == old(state)
      ensures Truthy(state.targetValue) && !old(state.hasRenderedOnce) ==>
                state.hasRenderedOnce && frame == Some(Frame(state.lastValue.value, state.trend, false, None))
      ensures Truthy(state.targetValue) && old(state.hasRenderedOnce) ==>
        var st := state;
        var nowServer := nowClient - skew;
        var v := Interpolated(st.lastValue.value, st.targetValue.value, st.animStartServerSec.value, st.animDurationSec.value, nowServer);
        && st.hasRenderedOnce
        && frame == Some(Frame(v, st.trend, IsStale(nowServer, st.updatedAtServerSec.value, st.intervalSec.value), Some(Indicators(st.anchors, v))))
        && (st.lastValue.value <= v <= st.targetValue.value || st.targetValue.value <= v <= st.lastValue.value)
    {
      if !Truthy(state.targetValue) {
        return None;
      }
      if !state.hasRenderedOnce {
        state := state.(hasRenderedOnce := true);
        return Some(Frame(state.lastValue.value, state.trend, false, None));
      }
      var st := state;
      var nowServer := nowClient - skew;
      var value := Interpolated(st.lastValue.value, st.targetValue.value, st.animStartServerSec.value, st.animDurationSec.value, nowServer);
      var stale := IsStale(nowServer, st.updatedAtServerSec.value, st.intervalSec.value);
      frame := Some(Frame(value, st.trend, stale, Some(Indicators(st.anchors, value))));
    }

    /** `buildAnchors` (index.php:385-407): `state.anchors` becomes the anchor rows of the samples. */
    method BuildAnchors()
      requires Valid() && |state.samples| > 0
      modifies this`state
      ensures Valid()
      ensures state == old(state).(anchors := AnchorRows(old(state).samples))
    {
      var rows := AnchorTable(state.samples);
      state := state.(anchors := rows);
    }

    /**
     * The line `renderConclusion` shows (index.php:616-620), with the score,
     * the long-run direction and the phrase draw as inputs: empty without a
     * truthy price or without samples, otherwise the conclusion sentence on a
     * phrase the lexicon offers for the score under the current tone.
     */
    function ConclusionLine(score: int, long: LongRun, random: real): (line: string)
      requires 0.0 <= random < 1.0
      reads this
      ensures !Truthy(state.targetValue) || state.samples == [] ==> line == ""
      ensures Truthy(state.targetValue) && state.samples != [] ==>
                exists phrase :: Offered(moodData, moodMode, score, phrase) && line == ConclusionText(score, long, phrase)
    {
      GetConclusion(state.targetValue, |state.samples|, score, long, moodData, moodMode, random).GetOr("")
    }

    /** `updateMoodMode` (index.php:669-678): the toggle position and the tone in effect. */
    method UpdateMoodMode(c: WallClock)
      requires ValidClock(c)
      modifies this`moodSetting, this`moodMode
      ensures moodMode.Some? && (moodSetting, moodMode.value) == ResolveMood(moodOverride, c)
    {
      var r := ResolveMood(moodOverride, c);
      moodSetting := r.0;
      moodMode := Some(r.1);
    }

    /** `setMoodOverride` (index.php:660-667); `None` is the `auto` position. */
    method SetMoodOverride(mode: Option<Tone>, c: WallClock)
      requires ValidClock(c)
      modifies this`moodOverride, this`moodSetting, this`moodMode
      ensures moodOverride == mode
      ensures moodMode.Some? && (moodSetting, moodMode.value) == ResolveMood(mode, c)
    {
      moodOverride := mode;
      UpdateMoodMode(c);
    }

    /** `loadMoodOverride` (index.php:651-658): only a stored `pro` or `degen` is taken. */
    method LoadMoodOverride(saved: Option<string>)
      modifies this`moodOverride
      ensures saved == Some("pro") ==> moodOverride == Some(Pro)
      ensures saved == Some("degen") ==> moodOverride == Some(Degen)
      ensures saved != Some("pro") && saved != Some("degen") ==> moodOverride == old(moodOverride)
    {
      if saved == Some("pro") {
        moodOverride := Some(Pro);
      } else if saved == Some("degen") {
        moodOverride := Some(Degen);
      }
    }

    /** `loadMood` (index.php:680-685) once the lexicon has been fetched and parsed. */
    method LoadMood(raw: Option<Lexicon>, c: WallClock)
      requires ValidClock(c)
      modifies this`moodData, this`moodSetting, this`moodMode
      ensures moodData == Some(NormalizeMoodData(raw))
      ensures moodMode.Some? && (moodSetting, moodMode.value) == ResolveMood(moodOverride, c)
    {
      moodData := Some(NormalizeMoodData(raw));
      UpdateMoodMode(c);
    }
  }

  /** Fetching an unchanged document again is a complete no-op. */
  method RefetchIsNoOp(app: AppState, raw: Envelope, t1: real, t2: real, r1: real, r2: real) returns (second: bool)
    requires app.Valid() && 0.0 <= r1 < 1.0 && 0.0 <= r2 < 1.0
    modifies app`state
    ensures app.Valid() && !second
  {
    var first := app.Ingest(raw, t1, r1);
    second := app.Ingest(raw, t2, r2);
  }

  /**
   * Polling as written stops after a duplicate document: once a feed has
   * been taken, the poll that fetches the same feed again leaves no poll
   * pending, while the re-arming fetch leaves one whenever the feed held
   * `updated_at` and an interval.
   */
  method DuplicateStopsPolling(app: AppState, raw: Envelope, t1: real, t2: real, r1: real, r2: real)
    requires app.Valid() && 0.0 <= r1 < 1.0 && 0.0 <= r2 < 1.0
    modifies app`state
    ensures app.Valid() && app.state.fetchTimer.None?
  {
    var first := app.Ingest(raw, t1, r1);
    var second := app.FetchFeed(Some(raw), t2, r2);
  }

  /** The re-arming fetch of the same document keeps a poll pending. */
  method DuplicateKeepsPollingRearmed(app: AppState, raw: Envelope, t1: real, t2: real, r1: real, r2: real)
    requires app.Valid() && 0.0 <= r1 < 1.0 && 0.0 <= r2 < 1.0
    modifies app`state
    ensures app.Valid()
    ensures Truthy(app.state.updatedAtServerSec) && Truthy(app.state.intervalSec) ==> app.state.fetchTimer.Some?
  {
    var first := app.Ingest(raw, t1, r1);
    var second := app.FetchFeedRearmed(Some(raw), t2, r2);
  }

  /**
   * A feed with `updated_at` 1000, interval 60 and no clock skew, holding
   * the samples (940, 100) and (1000, 110) and taken at 1000, animates from
   * 100 to 110 over 60 s; the tick at 1030 shows 105, and with the jitter
   * draw 0.5 the next poll fires at 1063.5.
   */
  lemma WorkedExample()
    ensures AnimDuration(1000.0, 60.0, 1000.0) == 60.0
    ensures Interpolated(100.0, 110.0, 1000.0, 60.0, 1030.0) == 105.0
    ensures NextPoll(Some(1000.0), Some(60.0), 0.0, 1000.0, 0.5, None) == Some(1063.5)
  {
  }
}

=== FILE: feed.dfy ===
/**
 * Pure pieces of the page script's feed handling (index.php): sample
 * normalisation and ordering, the JavaScript `||` defaults, the trend and
 * animation-window arithmetic, the poll delay and the interpolated price.
 * Times are epoch seconds and prices euros, both as exact `real`s.
 */
module Feed {
  import opened Wrappers
  import opened Sorting

  // CONFIG (index.php:76-83)
  const StaleMultiplier: real := 2.0
  const JitterMinSec: real := 1.0
  const JitterMaxSec: real := 2.0
  // Defaults and guards written inline in index.php
  const DefaultIntervalSec: real := 60.0   // index.php:229
  const SafetyMarginSec: real := 2.0       // index.php:161
  const MinDelayMs: real := 500.0          // index.php:179
  const MinAnimDurationSec: real := 1.0    // index.php:256-257

  /** One price observation after `Number()` conversion. */
  datatype Sample = Sample(ts: real, value: real)

  /**
   * One entry of `raw.prices` as `Number()` sees it: `None` stands for a
   * field that converts to `NaN` or an infinity (not `Number.isFinite`).
   */
  datatype RawEntry = RawEntry(ts: Option<real>, value: Option<real>)

  /**
   * The fetched JSON document. `prices` is `None` when it is missing or not
   * an array; `interval` and `updatedAt` are `Number(raw.meta && raw.meta.x)`,
   * `None` when that is `NaN` (no meta object, no field, not numeric).
   */
  datatype Envelope = Envelope(prices: Option<seq<RawEntry>>, interval: Option<real>, updatedAt: Option<real>)

  /** The de-duplication key `latest.ts + ':' + latest.value` (index.php:221). */
  datatype Signature = Signature(ts: real, value: real)

  datatype Trend = Up | Down | Neutral

  function TsOf(p: Sample): real { p.ts }

  function SignatureOf(p: Sample): Signature { Signature(p.ts, p.value) }

  /** One entry after `map` and `filter`: a sample when both fields are finite, else nothing. */
  function Kept(e: RawEntry): seq<Sample>
  {
    if e.ts.Some? && e.value.Some? then [Sample(e.ts.value, e.value.value)] else []
  }

  /** Keeps the entries whose two fields are finite numbers, in input order (index.php:210-215). */
  function Normalize(raw: seq<RawEntry>): (r: seq<Sample>)
    ensures |r| <= |raw|
  {
    if raw == [] then [] else Kept(raw[0]) + Normalize(raw[1..])
  }

  /** The entry a sample comes from. */
  function EntryOf(p: Sample): RawEntry { RawEntry(Some(p.ts), Some(p.value)) }

  lemma KeptCount(e: RawEntry, p: Sample)
    ensures multiset(Kept(e))[p] == multiset([e])[EntryOf(p)]
  {
  }

  /**
   * Every finite entry is kept as often as it occurs, and nothing else is
   * kept: the count of samples decides the `samples.length < 2` guard.
   */
  lemma {:induction false} NormalizeCounts(raw: seq<RawEntry>)
    ensures forall p :: multiset(Normalize(raw))[p] == multiset(raw)[EntryOf(p)]
    ensures forall p :: p in Normalize(raw) <==> EntryOf(p) in raw
    decreases |raw|
  {
    var n := Normalize(raw);
    if raw != [] {
      var e, tail := raw[0], raw[1..];
      NormalizeCounts(tail);
      assert raw == [e] + tail;
      assert multiset(raw) == multiset([e]) + multiset(tail);
      assert multiset(n) == multiset(Kept(e)) + multiset(Normalize(tail));
      forall p ensures multiset(n)[p] == multiset(raw)[EntryOf(p)] {
        KeptCount(e, p);
      }
    }
    forall p ensures p in n <==> EntryOf(p) in raw {
      assert p in n <==> p in multiset(n);
      assert EntryOf(p) in raw <==> EntryOf(p) in multiset(raw);
    }
  }

  /**
   * Normalisation keeps the input order: it maps each entry on its own and
   * concatenates the results.
   */
  lemma {:induction false} NormalizeConcat(a: seq<RawEntry>, b: seq<RawEntry>)
    ensures Normalize(a + b) == Normalize(a) + Normalize(b)
    decreases |a|
  {
    if a == [] {
      assert a + b == b;
    } else {
      var ab := a + b;
      assert ab[0] == a[0] && ab[1..] == a[1..] + b;
      NormalizeConcat(a[1..], b);
      assert Normalize(ab) == Kept(a[0]) + Normalize(a[1..] + b);
    }
  }

  /** Normalised samples in ascending, stable timestamp order (index.php:210-216). */
  function PrepareSamples(raw: seq<RawEntry>): (r: seq<Sample>)
    ensures SortedBy(r, TsOf)
    ensures multiset(r) == multiset(Normalize(raw))
  {
    SortBy(Normalize(raw), TsOf)
  }

  /**
   * The sort is stable: samples with equal timestamps keep their input
   * order (`Array.prototype.sort` is stable).
   */
  lemma PrepareSamplesStable(raw: seq<RawEntry>)
    ensures forall k :: WithKey(PrepareSamples(raw), TsOf, k) == WithKey(Normalize(raw), TsOf, k)
  {
    forall k ensures WithKey(PrepareSamples(raw), TsOf, k) == WithKey(Normalize(raw), TsOf, k) {
      SortByStable(Normalize(raw), TsOf, k);
    }
  }

  /** JavaScript truthiness of a number that may be `NaN`. */
  predicate Truthy(x: Option<real>) { x.Some? && x.value != 0.0 }

  /** `x || d` on a number. */
  function OrDefault(x: Option<real>, d: real): real
  {
    if Truthy(x) then x.value else d
  }

  /** The price arrow: strict comparison of the last two values (index.php:239-242). */
  function TrendOf(prev: real, curr: real): (t: Trend)
    ensures t == Up <==> prev < curr
    ensures t == Down <==> curr < prev
    ensures t == Neutral <==> curr == prev
  {
    if curr > prev then Up else if curr < prev then Down else Neutral
  }

  /**
   * The animation length: the time left until the predicted next update,
   * but never less than one second (index.php:248-259).
   */
  function AnimDuration(updatedAt: real, interval: real, nowServer: real): (d: real)
    ensures d >= MinAnimDurationSec
    ensures d >= updatedAt + interval - nowServer
    ensures d == MinAnimDurationSec || d == updatedAt + interval - nowServer
  {
    var remaining := updatedAt + interval - nowServer;
    if MinAnimDurationSec >= remaining then MinAnimDurationSec else remaining
  }

  /** `jitterMin + Math.random() * (jitterMax - jitterMin)` (index.php:168-170). */
  function Jitter(random: real): (j: real)
    requires 0.0 <= random < 1.0
    ensures JitterMinSec <= j < JitterMaxSec
  {
    JitterMinSec + random * (JitterMaxSec - JitterMinSec)
  }

  /**
   * The poll delay in milliseconds (index.php:158-179). The fire time,
   * taken back to the server clock, never precedes the safety window plus
   * jitter, and equals it unless the 500 ms floor applied.
   */
  function FetchDelayMs(updatedAt: real, interval: real, skew: real, jitter: real, nowClient: real): (ms: real)
    ensures ms >= MinDelayMs
    ensures nowClient + ms / 1000.0 - skew >= updatedAt + interval + SafetyMarginSec + jitter
    ensures ms == MinDelayMs || nowClient + ms / 1000.0 - skew == updatedAt + interval + SafetyMarginSec + jitter
  {
    var earliestServerFetch := updatedAt + interval + SafetyMarginSec;
    var earliestClientFetch := earliestServerFetch + skew;
    var targetClientFetch := earliestClientFetch + jitter;
    var delayMs := (targetClientFetch - nowClient) * 1000.0;
    if delayMs < MinDelayMs then MinDelayMs else delayMs
  }

  /**
   * The pending poll after `scheduleNextFetch` (index.php:153-201), as its
   * fire time on the client clock: the previous one, `pending`, when the
   * update time or the interval is missing or zero; otherwise one at least
   * 500 ms from now which, unless that minimum applies, fires on the server
   * clock inside the jitter window `[updated_at + interval + 3 s,
   * updated_at + interval + 4 s)`.
   */
  function NextPoll(updatedAt: Option<real>, interval: Option<real>, skew: real, nowClient: real, random: real, pending: Option<real>): (r: Option<real>)
    requires 0.0 <= random < 1.0
    ensures !(Truthy(updatedAt) && Truthy(interval)) ==> r == pending
    ensures Truthy(updatedAt) && Truthy(interval) ==>
      var earliest := updatedAt.value + interval.value + SafetyMarginSec;
      && r.Some?
      && r.value >= nowClient + MinDelayMs / 1000.0
      && r.value - skew >= earliest + JitterMinSec
      && (r.value == nowClient + MinDelayMs / 1000.0 || r.value - skew < earliest + JitterMaxSec)
      && (r.value == nowClient + MinDelayMs / 1000.0 || r.value - skew == earliest + JitterMinSec + random * (JitterMaxSec - JitterMinSec))
  {
    if !Truthy(updatedAt) || !Truthy(interval) then pending
    else Some(nowClient + FetchDelayMs(updatedAt.value, interval.value, skew, Jitter(random), nowClient) / 1000.0)
  }

  /** `clamp(v, a, b) = Math.max(a, Math.min(b, v))` (index.php:100). */
  function Clamp(v: real, lo: real, hi: real): real
  {
    var m := if hi <= v then hi else v;
    if lo >= m then lo else m
  }

  /** The linear interpolation `a + (b - a) * t` (index.php:330-332). */
  function Lerp(a: real, b: real, t: real): real
  {
    a + (b - a) * t
  }

  /**
   * The price the render tick shows at server time `nowServer`
   * (index.php:323-332): `lastValue` until the window starts, `targetValue`
   * once it has elapsed, the straight line between them inside the window,
   * and always between the two.
   */
  function Interpolated(last: real, target: real, animStart: real, animDuration: real, nowServer: real): (v: real)
    requires animDuration > 0.0
    ensures nowServer <= animStart ==> v == last
    ensures nowServer >= animStart + animDuration ==> v == target
    ensures animStart <= nowServer <= animStart + animDuration ==>
              v == last + (target - last) * ((nowServer - animStart) / animDuration)
    ensures (last <= v <= target) || (target <= v <= last)
  {
    var t := Clamp((nowServer - animStart) / animDuration, 0.0, 1.0);
    assert 0.0 <= t <= 1.0;
    QuotientBounds(nowServer - animStart, animDuration);
    LerpBetween(last, target, t);
    Lerp(last, target, t)
  }

  lemma QuotientBounds(n: real, d: real)
    requires d > 0.0
    ensures n <= 0.0 ==> n / d <= 0.0
    ensures n >= d ==> n / d >= 1.0
    ensures 0.0 <= n <= d ==> 0.0 <= n / d <= 1.0
  {
    var q := n / d;
    assert q * d == n;
    if n <= 0.0 && q > 0.0 {
      ProductPositive(q, d);
    }
    if n >= d && q < 1.0 {
      ProductPositive(1.0 - q, d);
    }
    if 0.0 <= n && q < 0.0 {
      ProductPositive(-q, d);
    }
    if n <= d && q > 1.0 {
      ProductPositive(q - 1.0, d);
    }
  }

  lemma ProductPositive(x: real, y: real)
    requires x > 0.0 && y > 0.0
    ensures x * y > 0.0
  {
  }

  lemma ProductNonNegative(x: real, y: real)
    requires x >= 0.0 && y >= 0.0
    ensures x * y >= 0.0
  {
  }

  lemma LerpBetween(a: real, b: real, t: real)
    requires 0.0 <= t <= 1.0
    ensures (a <= Lerp(a, b, t) <= b) || (b <= Lerp(a, b, t) <= a)
  {
    if a <= b {
      ProductNonNegative(b - a, t);
      ProductNonNegative(b - a, 1.0 - t);
    } else {
      ProductNonNegative(a - b, t);
      ProductNonNegative(a - b, 1.0 - t);
    }
  }

  /** The stale flag: strictly more than two intervals since the last update (index.php:334-336). */
  predicate IsStale(nowServer: real, updatedAt: real, interval: real)
  {
    nowServer - updatedAt > interval * StaleMultiplier
  }

  /**
   * The flag is off at exactly two intervals after the update and, once on,
   * stays on as the clock advances.
   */
  lemma StaleThreshold(updatedAt: real, interval: real, t1: real, t2: real)
    ensures !IsStale(updatedAt + interval * StaleMultiplier, updatedAt, interval)
    ensures IsStale(t1, updatedAt, interval) && t1 <= t2 ==> IsStale(t2, updatedAt, interval)
  {
  }

  /**
   * One anchor indicator (index.php:428-441): the direction of the live
   * price against the anchor's reference, the absolute difference, and the
   * absolute percentage (`None` where the reference is 0, which JavaScript
   * shows as `Infinity` or `NaN`).
   */
  datatype Indicator = Indicator(up: bool, absDiff: real, absPct: Option<real>)

  function IndicatorFor(current: real, reference: real): (ind: Indicator)
    ensures ind.up <==> current >= reference
    ensures current == reference + (if ind.up then ind.absDiff else -ind.absDiff)
    ensures ind.absDiff >= 0.0
    ensures ind.absPct.Some? <==> reference != 0.0
    ensures ind.absPct.Some? ==> ind.absPct.value >= 0.0
    ensures ind.absPct.Some? ==> ind.absPct.value * (if reference > 0.0 then reference else -reference) == ind.absDiff * 100.0
  {
    var diff := current - reference;
    var absDiff := if diff >= 0.0 then diff else -diff;
    Indicator(diff >= 0.0, absDiff,
      if reference == 0.0 then None
      else var p := diff / reference * 100.0; Some(if p >= 0.0 then p else -p))
  }
}

=== FILE: mood.dfy ===
/**
 * The mood resolver of the page script (index.php:556-560, 598-703): the
 * integer score's final rounding and clamp, the office-hours tone, the
 * phrase lexicon with its fallbacks, and the conclusion sentence.
 */
module Mood {
  import opened Wrappers
  import Feed

  const MinScore: int := -4
  const MaxScore: int := 4
  const DefaultMood: string := "doing something"   // index.php:701
  const ConclusionPrefix: string := "Bitcoin is "

  /** The effective tone: `'pro'` or `'degen'`. */
  datatype Tone = Pro | Degen

  /** The three-position toggle: `'auto'` or a manual tone. */
  datatype Setting = Auto | Fixed(tone: Tone)

  /** The local wall clock as `Date` reports it: `getDay()` (0 = Sunday), hours, minutes, seconds. */
  datatype WallClock = WallClock(weekday: int, hour: int, minute: int, second: int)

  predicate ValidClock(c: WallClock)
  {
    0 <= c.weekday <= 6 && 0 <= c.hour < 24 && 0 <= c.minute < 60 && 0 <= c.second < 60
  }

  function SecondOfDay(c: WallClock): int { c.hour * 3600 + c.minute * 60 + c.second }

  /**
   * `computeAutoMoodMode` (index.php:632-649): professional tone Monday to
   * Friday from 08:00:00 up to and including 17:30:00, playful otherwise.
   */
  function AutoMoodMode(c: WallClock): (t: Tone)
    requires ValidClock(c)
    ensures t == Pro <==> 1 <= c.weekday <= 5 && 8 * 3600 <= SecondOfDay(c) <= 17 * 3600 + 30 * 60
  {
    var inOffice :=
      c.weekday >= 1 && c.weekday <= 5 &&
      ((c.hour > 8 && c.hour < 17) ||
       c.hour == 8 ||
       (c.hour == 17 && c.minute < 30) ||
       (c.hour == 17 && c.minute == 30 && c.second == 0));
    if inOffice then Pro else Degen
  }

  /** The setting shown on the toggle and the tone in effect (index.php:669-674). */
  function ResolveMood(moodOverride: Option<Tone>, c: WallClock): (r: (Setting, Tone))
    requires ValidClock(c)
    ensures moodOverride.Some? ==> r.0 == Fixed(moodOverride.value) && r.1 == moodOverride.value
    ensures moodOverride.None? ==> r.0 == Auto && (r.1 == Pro <==> 1 <= c.weekday <= 5 && 8 * 3600 <= SecondOfDay(c) <= 17 * 3600 + 30 * 60)
  {
    match moodOverride
    case Some(t) => (Fixed(t), t)
    case None => (Auto, AutoMoodMode(c))
  }

  /** Phrase lists by score bucket. */
  type Buckets = map<int, seq<string>>

  /**
   * The phrase lexicon: the tone-keyed sections it has (only those that are
   * present and truthy) and any score buckets at its top level.
   */
  datatype Lexicon = Lexicon(tones: map<Tone, Buckets>, top: Buckets)

  /**
   * `normalizeMoodData` (index.php:624-630): a lexicon with a tone section
   * is kept as it is; a flat one (or none) serves both tones.
   */
  function NormalizeMoodData(raw: Option<Lexicon>): (l: Lexicon)
    ensures l.tones != map[]
    ensures raw.Some? && raw.value.tones != map[] ==> l == raw.value
    ensures raw.None? || raw.value.tones == map[] ==>
              Pro in l.tones && Degen in l.tones && l.tones[Pro] == l.tones[Degen] == (if raw.Some? then raw.value.top else map[])
  {
    if raw.Some? && raw.value.tones != map[] then raw.value
    else
      var flat := if raw.Some? then raw.value.top else map[];
      var tones := map[Degen := flat, Pro := flat];
      assert Pro in tones;
      Lexicon(tones, map[])
  }

  /** The distance between two integers. */
  function Dist(a: int, b: int): nat { if a <= b then b - a else a - b }

  /** `Math.max(-4, Math.min(4, score))` (index.php:695): the bucket in -4..4 nearest to the score. */
  function ClampScore(score: int): (b: int)
    ensures MinScore <= b <= MaxScore
    ensures MinScore <= score <= MaxScore ==> b == score
    ensures forall k :: MinScore <= k <= MaxScore ==> Dist(score, b) <= Dist(score, k)
  {
    if score < MinScore then MinScore else if score > MaxScore then MaxScore else score
  }

  /**
   * `moodListForScore` (index.php:687-697): the phrase list of the score's
   * bucket, read from the tone's section (no tone yet counts as degen), or
   * from degen's section when the tone has none, or from the top level when
   * neither section exists; nothing without a lexicon or without that bucket.
   */
  function MoodListForScore(data: Option<Lexicon>, mode: Option<Tone>, score: int): (r: Option<seq<string>>)
    ensures data.None? ==> r.None?
    ensures data.Some? ==>
              var d, m, b := data.value, mode.GetOr(Degen), ClampScore(score);
              && (m in d.tones ==> r == if b in d.tones[m] then Some(d.tones[m][b]) else None)
              && (m !in d.tones && Degen in d.tones ==> r == if b in d.tones[Degen] then Some(d.tones[Degen][b]) else None)
              && (m !in d.tones && Degen !in d.tones ==> r == if b in d.top then Some(d.top[b]) else None)
  {
    match data
    case None => None
    case Some(d) =>
      var m := mode.GetOr(Degen);
      var section := if m in d.tones then d.tones[m] else if Degen in d.tones then d.tones[Degen] else d.top;
      var bucket := ClampScore(score);
      if bucket in section then Some(section[bucket]) else None
  }

  /** Scores outside -4..4 read the nearest end bucket. */
  lemma MoodListSaturates(data: Option<Lexicon>, mode: Option<Tone>, score: int)
    ensures score >= MaxScore ==> MoodListForScore(data, mode, score) == MoodListForScore(data, mode, MaxScore)
    ensures score <= MinScore ==> MoodListForScore(data, mode, score) == MoodListForScore(data, mode, MinScore)
  {
  }

  /** A flat lexicon, once normalised, gives the same phrases whatever the tone. */
  lemma FlatLexiconIgnoresTone(raw: Lexicon, score: int)
    requires raw.tones == map[]
    ensures MoodListForScore(Some(NormalizeMoodData(Some(raw))), Some(Pro), score)
         == MoodListForScore(Some(NormalizeMoodData(Some(raw))), Some(Degen), score)
    ensures MoodListForScore(Some(NormalizeMoodData(Some(raw))), Some(Pro), score)
         == if ClampScore(score) in raw.top then Some(raw.top[ClampScore(score)]) else None
  {
  }

  /** `phrase` is one `bitcoinMood` can return: a phrase of the score's list, or the default when that list is missing or empty. */
  predicate Offered(data: Option<Lexicon>, mode: Option<Tone>, score: int, phrase: string)
  {
    var list := MoodListForScore(data, mode, score);
    if list.Some? && |list.value| > 0 then phrase in list.value else phrase == DefaultMood
  }

  /**
   * `bitcoinMood` (index.php:699-703): a phrase of the score's bucket picked
   * by `random` in [0, 1), or the default phrase when there is none.
   */
  function BitcoinMood(data: Option<Lexicon>, mode: Option<Tone>, score: int, random: real): (phrase: string)
    requires 0.0 <= random < 1.0
    ensures Offered(data, mode, score, phrase)
  {
    var list := MoodListForScore(data, mode, score);
    if list.None? || |list.value| == 0 then DefaultMood
    else
      var i := (random * |list.value| as real).Floor;
      assert 0 <= i < |list.value| by { PickInRange(random, |list.value|); }
      list.value[i]
  }

  lemma PickInRange(random: real, n: nat)
    requires 0.0 <= random < 1.0 && n > 0
    ensures 0 <= (random * n as real).Floor < n
  {
    assert 0.0 <= random * n as real by { Feed.ProductNonNegative(random, n as real); }
    assert random * n as real < n as real by { Feed.ProductPositive(1.0 - random, n as real); }
  }

  /** JavaScript's `Math.round`: halves round up. */
  function JsRound(x: real): int { (x + 0.5).Floor }

  /**
   * The last step of `quantizeScore` (index.php:556-560), applied to the
   * already squashed value `tanh(x / 1.6) * 4`: an integer in -4..4 within
   * one half of its input when that lies in range.
   */
  function QuantizeScore(squished: real): (score: int)
    ensures MinScore <= score <= MaxScore
    ensures MinScore as real <= squished <= MaxScore as real ==>
              squished - 0.5 < score as real <= squished + 0.5
  {
    ClampScore(JsRound(squished))
  }

  /** Quantising never reverses the order of two inputs. */
  lemma QuantizeMonotone(x: real, y: real)
    requires x <= y
    ensures QuantizeScore(x) <= QuantizeScore(y)
  {
    assert JsRound(x) <= JsRound(y);
  }

  /** The long-run direction `sinceStartTrend` reports. */
  datatype LongRun = LongUp | LongDown | Flat

  const DownClause: string := ", but still down on the longer run"
  const UpClause: string := ", but still up on the longer run"

  /**
   * The sentence rule of `getConclusion` (index.php:604-613): "Bitcoin is "
   * and the mood phrase, followed by the "still down" clause when the score
   * is positive but the long run points down, by the "still up" clause when
   * the score is negative but the long run points up, and by nothing
   * otherwise.
   */
  function ConclusionText(score: int, long: LongRun, base: string): (s: string)
    ensures |s| >= |ConclusionPrefix + base| && s[..|ConclusionPrefix + base|] == ConclusionPrefix + base
    ensures |s| > |ConclusionPrefix + base| <==> (score > 0 && long == LongDown) || (score < 0 && long == LongUp)
    ensures score > 0 && long == LongDown ==> s == ConclusionPrefix + base + DownClause
    ensures score < 0 && long == LongUp ==> s == ConclusionPrefix + base + UpClause
  {
    if score > 0 && long == LongDown then ConclusionPrefix + base + DownClause
    else if score < 0 && long == LongUp then ConclusionPrefix + base + UpClause
    else ConclusionPrefix + base
  }

  /**
   * `getConclusion` (index.php:598-614) with the score and the long-run
   * direction as inputs: nothing without a truthy price or without samples,
   * otherwise the sentence built on a phrase `bitcoinMood` offers for the
   * score.
   */
  function GetConclusion(cur: Option<real>, sampleCount: nat, score: int, long: LongRun,
                         data: Option<Lexicon>, mode: Option<Tone>, random: real): (r: Option<string>)
    requires 0.0 <= random < 1.0
    ensures r.None? <==> !Feed.Truthy(cur) || sampleCount == 0
    ensures r.Some? ==> exists phrase :: Offered(data, mode, score, phrase) && r.value == ConclusionText(score, long, phrase)
  {
    if !Feed.Truthy(cur) || sampleCount == 0 then None
    else Some(ConclusionText(score, long, BitcoinMood(data, mode, score, random)))
  }
}

=== FILE: price_log.dfy ===
/**
 * The cron step of update.php: load the stored price log, take one fetched
 * price, append it (smoothing a repeated price), keep the newest week of
 * entries and rewrite the meta block. Prices are integer thousandths of a
 * euro, the precision the step rounds to; the HTTP fetch and the file are
 * parameters.
 */
module PriceLog {
  import opened Wrappers

  /** `$PRECISION`: decimals kept on every price (update.php:4). */
  const Precision: int := 3
  /** `$INTERVAL`: seconds between two runs, as announced in `meta` (update.php:9). */
  const IntervalSec: int := 60
  /** `$MAX_ENTRIES`: one week of minutes (update.php:10). */
  const MaxEntries: int := 60 * 24 * 7

  /** One stored price: a Unix timestamp and a value in thousandths. */
  datatype Entry = Entry(ts: int, value: int)

  /** The `meta` block; `None` in a document stands for the empty `[]`. */
  datatype Meta = Meta(updatedAt: int, interval: int, precision: int)

  /** The decoded contents of `bitcoin.json`; `prices` is `None` when the key is missing. */
  datatype Document = Document(currency: string, meta: Option<Meta>, prices: Option<seq<Entry>>)

  /** How a run ends: an exit before writing, or a written file. */
  datatype Outcome = FetchFailed | DuplicateTimestamp | Written

  /**
   * `round(($prev + $value) / 2, 3)` on thousandths (update.php:48): the
   * integer nearest to the mean, a half rounded away from zero.
   */
  function Midpoint(a: int, b: int): (m: int)
    ensures a <= m <= b || b <= m <= a
    ensures 0 <= a + b ==> 0 <= 2 * m - (a + b) <= 1
    ensures a + b < 0 ==> -1 <= 2 * m - (a + b) <= 0
  {
    var n := a + b;
    if n % 2 == 0 then n / 2
    else if n > 0 then (n + 1) / 2
    else (n - 1) / 2
  }

  /** The rounding of `Midpoint` is the only one with its two bounds. */
  lemma MidpointUnique(a: int, b: int, m: int)
    requires 0 <= a + b ==> 0 <= 2 * m - (a + b) <= 1
    requires a + b < 0 ==> -1 <= 2 * m - (a + b) <= 0
    ensures m == Midpoint(a, b)
  {
  }

  /**
   * The log after the append of update.php:42-65: `(now, v)` goes at the
   * end; when `v` repeats the last stored value and there is an entry
   * before it, that last entry's value is first replaced by the midpoint of
   * the entry before it and `v`.
   */
  function Appended(s: seq<Entry>, now: int, v: int): (r: seq<Entry>)
    ensures |r| == |s| + 1
    ensures r[|s|] == Entry(now, v)
    ensures forall i :: 0 <= i < |s| && i != |s| - 1 ==> r[i] == s[i]
    ensures |s| >= 1 ==> r[|s| - 1].ts == s[|s| - 1].ts
    ensures |s| >= 2 && s[|s| - 1].value == v ==>
              r[|s| - 1].value == Midpoint(s[|s| - 2].value, v)
    ensures |s| < 2 || s[|s| - 1].value != v ==> r[..|s|] == s
  {
    if |s| >= 2 && s[|s| - 1].value == v then
      s[|s| - 1 := s[|s| - 1].(value := Midpoint(s[|s| - 2].value, v))] + [Entry(now, v)]
    else
      s + [Entry(now, v)]
  }

  /** `array_slice($prices, -$MAX_ENTRIES)` when the log is too long (update.php:68-70). */
  function Trimmed(s: seq<Entry>): (r: seq<Entry>)
    ensures |r| <= MaxEntries
    ensures |r| == if |s| <= MaxEntries then |s| else MaxEntries
    ensures r == s[|s| - |r|..]
  {
    if |s| > MaxEntries then s[|s| - MaxEntries..] else s
  }

  predicate StrictlyIncreasingTs(s: seq<Entry>)
  {
    forall i, j :: 0 <= i < j < |s| ==> s[i].ts < s[j].ts
  }

  /** Appending a later timestamp keeps the timestamps strictly increasing. */
  lemma {:induction false} AppendedKeepsOrder(s: seq<Entry>, now: int, v: int)
    requires StrictlyIncreasingTs(s)
    requires |s| == 0 || s[|s| - 1].ts < now
    ensures StrictlyIncreasingTs(Appended(s, now, v))
  {
    var r := Appended(s, now, v);
    forall i, j | 0 <= i < j < |r| ensures r[i].ts < r[j].ts {
      assert r[i].ts == s[i].ts;
      if j == |s| {
        if i < |s| - 1 {
          assert s[i].ts < s[|s| - 1].ts;
        }
      } else {
        assert r[j].ts == s[j].ts;
      }
    }
  }

  /** Trimming keeps a suffix, so it keeps the timestamps strictly increasing. */
  lemma {:induction false} TrimmedKeepsOrder(s: seq<Entry>)
    requires StrictlyIncreasingTs(s)
    ensures StrictlyIncreasingTs(Trimmed(s))
  {
    var t := Trimmed(s);
    var d := |s| - |t|;
    forall i, j | 0 <= i < j < |t| ensures t[i].ts < t[j].ts {
      assert t[i] == s[d + i] && t[j] == s[d + j];
    }
  }

  /**
   * A run with a clock that moved forward keeps the timestamps strictly
   * increasing; the guard of update.php:34-37 rejects only an equal one.
   */
  lemma {:induction false} AppendKeepsOrder(s: seq<Entry>, now: int, v: int)
    requires StrictlyIncreasingTs(s)
    requires |s| == 0 || s[|s| - 1].ts < now
    ensures StrictlyIncreasingTs(Trimmed(Appended(s, now, v)))
  {
    AppendedKeepsOrder(s, now, v);
    TrimmedKeepsOrder(Appended(s, now, v));
  }

  /** A run that goes back in time breaks the order: the guard does not look at earlier timestamps. */
  lemma BackwardsClockBreaksOrder()
    ensures StrictlyIncreasingTs([Entry(100, 5000)])
    ensures !StrictlyIncreasingTs(Trimmed(Appended([Entry(100, 5000)], 40, 6000)))
  {
    var r := Appended([Entry(100, 5000)], 40, 6000);
    assert r[0].ts == 100 && r[1].ts == 40;
  }

  /** The stored document `update.php` works on: `$data`. */
  class PriceLog {
    var currency: string
    var meta: Option<Meta>
    var prices: seq<Entry>

    /**
     * The load of update.php:15-22: the stored document when it decodes and
     * has `prices`, otherwise an empty euro log with an empty `meta`.
     */
    constructor Load(file: Option<Document>)
      ensures file.Some? && file.value.prices.Some? ==>
                currency == file.value.currency && meta == file.value.meta && prices == file.value.prices.value
      ensures !(file.Some? && file.value.prices.Some?) ==>
                currency == "eur" && meta.None? && prices == []
    {
      if file.Some? && file.value.prices.Some? {
        currency, meta, prices := file.value.currency, file.value.meta, file.value.prices.value;
      } else {
        currency, meta, prices := "eur", None, [];
      }
    }

    /** The append of update.php:42-65, in place on `prices`. */
    method Append(now: int, value: int)
      modifies this`prices
      ensures prices == Appended(old(prices), now, value)
    {
      var count := |prices|;
      if count >= 1 && prices[count - 1].value == value {
        if count >= 2 {
          var prev := prices[count - 2].value;
          var interp := Midpoint(prev, value);
          prices := prices[count - 1 := prices[count - 1].(value := interp)];
        }
        prices := prices + [Entry(now, value)];
      } else {
        prices := prices + [Entry(now, value)];
      }
    }

    /**
     * One run after the load (update.php:24-77), with the clock `now` and
     * the fetched price in thousandths (`None` when the fetch fails or the
     * answer has no `bitcoin.eur`). An exit leaves the document as it was;
     * a write appends `(now, value)`, trims to the newest `MaxEntries`
     * entries and sets `meta` to `(now, 60, 3)`.
     */
    method Step(now: int, fetched: Option<int>) returns (outcome: Outcome)
      modifies this
      ensures fetched.None? ==> outcome == FetchFailed
      ensures fetched.Some? && |old(prices)| > 0 && old(prices)[|old(prices)| - 1].ts == now ==>
                outcome == DuplicateTimestamp
      ensures outcome != Written ==> unchanged(this)
      ensures outcome == Written <==>
                fetched.Some? && (|old(prices)| == 0 || old(prices)[|old(prices)| - 1].ts != now)
      ensures outcome == Written ==>
                && prices == Trimmed(Appended(old(prices), now, fetched.value))
                && prices[|prices| - 1] == Entry(now, fetched.value)
                && |prices| <= MaxEntries
                && meta == Some(Meta(now, IntervalSec, Precision))
                && currency == old(currency)
    {
      if fetched.None? {
        return FetchFailed;
      }
      var value := fetched.value;
      if |prices| > 0 && prices[|prices| - 1].ts == now {
        return DuplicateTimestamp;
      }
      Append(now, value);
      if |prices| > MaxEntries {
        prices := prices[|prices| - MaxEntries..];
      }
      meta := Some(Meta(now, IntervalSec, Precision));
      return Written;
    }
  }
}

=== FILE: sorting.dfy ===
/**
 * Ordering helpers of the page script: the stable ascending sort that
 * `ingestFeed` applies to the samples (index.php:216) and the one that
 * `median` applies to a copy of its input (index.php:525-530).
 */
module Sorting {

  /** `s` is in ascending order of `key`. */
  predicate SortedBy<T>(s: seq<T>, key: T -> real)
  {
    forall i, j :: 0 <= i < j < |s| ==> key(s[i]) <= key(s[j])
  }

  /**
   * Inserts `x` in front of the first element whose key is not smaller;
   * an element that came earlier in the input stays in front of equal
   * keys, so the sort below is stable, as JavaScript's `Array.prototype.sort`.
   */
  function InsertBy<T>(x: T, s: seq<T>, key: T -> real): (r: seq<T>)
    requires SortedBy(s, key)
    ensures |r| == |s| + 1
    ensures multiset(r) == multiset{x} + multiset(s)
    ensures SortedBy(r, key)
  {
    if s == [] || key(x) <= key(s[0]) then
      [x] + s
    else
      SortedTail(s, key);
      var rest := InsertBy(x, s[1..], key);
      BoundOfPermutation(key(s[0]), x, s[1..], rest, key);
      SortedCons(s[0], rest, key);
      assert s == [s[0]] + s[1..];
      [s[0]] + rest
  }

  /** The tail of an ascending list is ascending and bounded below by its head. */
  lemma SortedTail<T>(s: seq<T>, key: T -> real)
    requires SortedBy(s, key) && |s| > 0
    ensures SortedBy(s[1..], key)
    ensures forall i :: 0 <= i < |s[1..]| ==> key(s[0]) <= key(s[1..][i])
  {
    forall i | 0 <= i < |s[1..]| ensures key(s[0]) <= key(s[1..][i]) {
      assert s[1..][i] == s[i + 1];
    }
    forall i, j | 0 <= i < j < |s[1..]| ensures key(s[1..][i]) <= key(s[1..][j]) {
      assert s[1..][i] == s[i + 1] && s[1..][j] == s[j + 1];
    }
  }

  /** An ascending list stays ascending behind an element no greater than all of it. */
  lemma SortedCons<T>(h: T, s: seq<T>, key: T -> real)
    requires SortedBy(s, key)
    requires forall i :: 0 <= i < |s| ==> key(h) <= key(s[i])
    ensures SortedBy([h] + s, key)
  {
    var r := [h] + s;
    forall i, j | 0 <= i < j < |r| ensures key(r[i]) <= key(r[j]) {
      assert r[j] == s[j - 1];
      if i > 0 {
        assert r[i] == s[i - 1];
      }
    }
  }

  /** A lower bound of `x` and of every element of `s` bounds every element of a permutation of them. */
  lemma BoundOfPermutation<T>(b: real, x: T, s: seq<T>, r: seq<T>, key: T -> real)
    requires b <= key(x)
    requires forall i :: 0 <= i < |s| ==> b <= key(s[i])
    requires multiset(r) == multiset{x} + multiset(s)
    ensures forall k :: 0 <= k < |r| ==> b <= key(r[k])
  {
    forall k | 0 <= k < |r| ensures b <= key(r[k]) {
      assert r[k] in multiset(r);
      if r[k] != x {
        assert r[k] in multiset(s);
        var i :| 0 <= i < |s| && s[i] == r[k];
      }
    }
  }

  /** Stable insertion sort by `key`. */
  function SortBy<T>(s: seq<T>, key: T -> real): (r: seq<T>)
    ensures |r| == |s|
    ensures multiset(r) == multiset(s)
    ensures SortedBy(r, key)
  {
    if s == [] then []
    else
      assert s == [s[0]] + s[1..];
      InsertBy(s[0], SortBy(s[1..], key), key)
  }

  /** The elements of `s` whose key is `k`, in their order in `s`. */
  function WithKey<T>(s: seq<T>, key: T -> real, k: real): seq<T>
  {
    if s == [] then [] else (if key(s[0]) == k then [s[0]] else []) + WithKey(s[1..], key, k)
  }

  lemma {:induction false} WithKeyConcat<T>(a: seq<T>, b: seq<T>, key: T -> real, k: real)
    ensures WithKey(a + b, key, k) == WithKey(a, key, k) + WithKey(b, key, k)
    decreases |a|
  {
    if a == [] {
      assert a + b == b;
    } else {
      var ab := a + b;
      assert ab[0] == a[0] && ab[1..] == a[1..] + b;
      WithKeyConcat(a[1..], b, key, k);
      var h := if key(a[0]) == k then [a[0]] else [];
      assert WithKey(ab, key, k) == h + WithKey(a[1..] + b, key, k);
      assert WithKey(a, key, k) == h + WithKey(a[1..], key, k);
    }
  }

  /** Putting `x` in front adds it in front of its key's group. */
  lemma WithKeyCons<T>(x: T, s: seq<T>, key: T -> real, k: real)
    ensures WithKey([x] + s, key, k) == (if key(x) == k then [x] else []) + WithKey(s, key, k)
  {
    var xs := [x] + s;
    assert xs[0] == x && xs[1..] == s;
  }

  /** The last element of `s` is the last element of its key's group. */
  lemma WithKeyLast<T>(s: seq<T>, key: T -> real)
    requires |s| > 0
    ensures var g := WithKey(s, key, key(s[|s| - 1])); |g| > 0 && g[|g| - 1] == s[|s| - 1]
  {
    var init, last := s[..|s| - 1], s[|s| - 1];
    assert s == init + [last];
    WithKeyConcat(init, [last], key, key(last));
  }

  /** `InsertBy` puts `x` in front of every element with the same key. */
  lemma {:induction false} InsertByWithKey<T>(x: T, s: seq<T>, key: T -> real, k: real)
    requires SortedBy(s, key)
    ensures WithKey(InsertBy(x, s, key), key, k) == (if key(x) == k then [x] else []) + WithKey(s, key, k)
    decreases |s|
  {
    if s == [] || key(x) <= key(s[0]) {
      WithKeyCons(x, s, key, k);
    } else {
      SortedTail(s, key);
      InsertByWithKey(x, s[1..], key, k);
      InsertBehindWithKey(x, s, InsertBy(x, s[1..], key), key, k);
    }
  }

  /** The step of `InsertByWithKey` where `x` goes behind the smaller head of `s`. */
  lemma InsertBehindWithKey<T>(x: T, s: seq<T>, rest: seq<T>, key: T -> real, k: real)
    requires |s| > 0 && key(s[0]) < key(x)
    requires WithKey(rest, key, k) == (if key(x) == k then [x] else []) + WithKey(s[1..], key, k)
    ensures WithKey([s[0]] + rest, key, k) == (if key(x) == k then [x] else []) + WithKey(s, key, k)
  {
    WithKeyCons(s[0], rest, key, k);
    WithKeyCons(s[0], s[1..], key, k);
    assert s == [s[0]] + s[1..];
  }

  /**
   * The sort is stable: for every key, the elements with that key appear
   * in the result in the order they had in the input.
   */
  lemma {:induction false} SortByStable<T>(s: seq<T>, key: T -> real, k: real)
    ensures WithKey(SortBy(s, key), key, k) == WithKey(s, key, k)
    decreases |s|
  {
    if s != [] {
      SortByStable(s[1..], key, k);
      InsertByWithKey(s[0], SortBy(s[1..], key), key, k);
    }
  }

  /**
   * The last element of the sorted list has the greatest key and is the
   * last element of the input with that key.
   */
  lemma SortByLast<T>(s: seq<T>, key: T -> real)
    requires |s| > 0
    ensures var r := SortBy(s, key);
            && (forall p :: p in s ==> key(p) <= key(r[|r| - 1]))
            && var g := WithKey(s, key, key(r[|r| - 1]));
               |g| > 0 && g[|g| - 1] == r[|r| - 1]
  {
    var r := SortBy(s, key);
    SortedLastIsMax(s, r, key);
    SortByStable(s, key, key(r[|r| - 1]));
    StableLast(s, r, key);
  }

  lemma SortedLastIsMax<T>(s: seq<T>, r: seq<T>, key: T -> real)
    requires SortedBy(r, key) && multiset(r) == multiset(s) && |r| > 0
    ensures forall p :: p in s ==> key(p) <= key(r[|r| - 1])
  {
    forall p | p in s ensures key(p) <= key(r[|r| - 1]) {
      assert p in multiset(r);
      var i :| 0 <= i < |r| && r[i] == p;
    }
  }

  lemma StableLast<T>(s: seq<T>, r: seq<T>, key: T -> real)
    requires |r| > 0 && WithKey(r, key, key(r[|r| - 1])) == WithKey(s, key, key(r[|r| - 1]))
    ensures var g := WithKey(s, key, key(r[|r| - 1])); |g| > 0 && g[|g| - 1] == r[|r| - 1]
  {
    WithKeyLast(r, key);
  }

  function Id(x: real): real { x }

  /** Two ascending orderings of the same multiset of numbers are the same sequence. */
  lemma {:induction false} SortedPermutationsEqual(a: seq<real>, b: seq<real>)
    requires SortedBy(a, Id) && SortedBy(b, Id)
    requires multiset(a) == multiset(b)
    ensures a == b
    decreases |a|
  {
    assert |b| == |multiset(b)| == |multiset(a)| == |a|;
    if a != [] {
      SameHead(a, b);
      SameTails(a, b);
      SortedTail(a, Id);
      SortedTail(b, Id);
      SortedPermutationsEqual(a[1..], b[1..]);
      assert a == [a[0]] + a[1..] && b == [b[0]] + b[1..];
    }
  }

  /** Two ascending orderings of the same non-empty multiset start with the same value. */
  lemma SameHead(a: seq<real>, b: seq<real>)
    requires SortedBy(a, Id) && SortedBy(b, Id)
    requires multiset(a) == multiset(b) && a != [] && b != []
    ensures a[0] == b[0]
  {
    assert a[0] in multiset(b) && b[0] in multiset(a);
    MinimumOfSorted(a, b[0]);
    MinimumOfSorted(b, a[0]);
  }

  /** Removing the same first value from two permutations leaves permutations. */
  lemma SameTails(a: seq<real>, b: seq<real>)
    requires multiset(a) == multiset(b) && a != [] && b != [] && a[0] == b[0]
    ensures multiset(a[1..]) == multiset(b[1..])
  {
    assert a == [a[0]] + a[1..] && b == [b[0]] + b[1..];
    calc {
      multiset(a[1..]);
      multiset(a) - multiset{a[0]};
      multiset(b) - multiset{b[0]};
      multiset(b[1..]);
    }
  }

  /** The first element of an ascending list is at most every value in it. */
  lemma MinimumOfSorted(s: seq<real>, x: real)
    requires SortedBy(s, Id) && x in multiset(s)
    ensures s[0] <= x
  {
    var k :| 0 <= k < |s| && s[k] == x;
    if k > 0 {
      assert Id(s[0]) <= Id(s[k]);
    }
  }

  /** `median` (index.php:525-530): 0 for no values, else the middle of the sorted copy. */
  function Median(arr: seq<real>): real
  {
    if |arr| == 0 then 0.0 else Middle(SortBy(arr, Id))
  }

  /** The middle value of a non-empty list, or the mean of the two middle values. */
  function Middle(a: seq<real>): real
    requires |a| > 0
  {
    var m := |a| / 2;
    if |a| % 2 == 1 then a[m] else (a[m - 1] + a[m]) / 2.0
  }

  /** The middle of an ascending list lies between its first and its last value. */
  lemma MiddleBetween(a: seq<real>)
    requires SortedBy(a, Id) && |a| > 0
    ensures a[0] <= Middle(a) <= a[|a| - 1]
  {
    var m := |a| / 2;
    assert Id(a[0]) <= Id(a[m]) <= Id(a[|a| - 1]);
    if |a| % 2 == 0 {
      assert Id(a[0]) <= Id(a[m - 1]) <= Id(a[m]);
    }
  }

  /** The median of a non-empty list lies between two of its values. */
  lemma MedianWithinValues(arr: seq<real>)
    requires |arr| > 0
    ensures exists i :: 0 <= i < |arr| && arr[i] <= Median(arr)
    ensures exists j :: 0 <= j < |arr| && Median(arr) <= arr[j]
  {
    var a := SortBy(arr, Id);
    MiddleBetween(a);
    assert a[0] in multiset(arr) && a[|a| - 1] in multiset(arr);
    var i :| 0 <= i < |arr| && arr[i] == a[0];
    var j :| 0 <= j < |arr| && arr[j] == a[|a| - 1];
  }

  /** The median does not depend on the order of its input. */
  lemma MedianOrderInsensitive(x: seq<real>, y: seq<real>)
    requires multiset(x) == multiset(y)
    ensures Median(x) == Median(y)
  {
    var sx, sy := SortBy(x, Id), SortBy(y, Id);
    SortedPermutationsEqual(sx, sy);
    assert |x| == |sx|;
  }

  /**
   * On an already ascending list the median is the middle value, or the
   * mean of the two middle values when the length is even.
   */
  lemma MedianOfSorted(a: seq<real>)
    requires SortedBy(a, Id) && |a| > 0
    ensures |a| % 2 == 1 ==> Median(a) == a[|a| / 2]
    ensures |a| % 2 == 0 ==> Median(a) == (a[|a| / 2 - 1] + a[|a| / 2]) / 2.0
  {
    SortedPermutationsEqual(SortBy(a, Id), a);
  }
}

=== FILE: wrappers.dfy ===
/** Optional values: `null`/`undefined` in the page script, a missing key in the cron script. */
module Wrappers {
  datatype Option<+T> = None | Some(value: T) {
    function GetOr(default: T): T {
      match this
      case Some(v) => v
      case None => default
    }
  }
}
